=== FILE: README.md ===
# Verified model of the gr-ccsds packet codecs

This project models the three byte-layout codecs of the repository in Dafny
and proves their layout laws:

- **Uplink command packet** (`pvdx/src/uplink.rs`, module `Uplink`). A
  16-byte packet header (callsign, pad, total size, command count, pad) is
  followed by one 8-byte sub-header per command (tag, pad, payload size).
  The payloads of the thirteen command variants come last. All multi-byte
  fields are big-endian.
- **CCSDS Space Packet** (`spp/src/space_packet.rs`, module `SpacePacket`).
  This is the 6-byte primary header of section 4.1.3 of CCSDS 133.0-B-2,
  packed as a metadata word, a sequence word and a data length. An empty
  secondary header and the data field follow it. The code departs from
  that standard in one field: `data_length` holds the number of data bytes
  itself, not that number minus one. The model follows the code.
- **USLP transfer frame serialiser** (`USLP/USLP.cpp`, module `Uslp`),
  loosely after section 4.1 of CCSDS 732.1-B-2. The primary header is ORed
  into a 64-bit word and the data field header into a 32-bit word. Both are
  emitted least significant byte first. The insert zone, data field, OCF and
  FECF follow in order.

Module `Bytes` (`bytes.dfy`) holds what the two Rust codecs share:
- `u8`/`u16`/`u32` integer types;
- big-endian encoding;
- the `io::Result` of the codecs, with its two error kinds `UnexpectedEof`
  and `InvalidData`;
- a `Reader` class standing for `Cursor<&[u8]>`;
- a `Writer` class standing for `Cursor<Vec<u8>>`.

Every reader and writer that advances a cursor is a method. Each such
method is proved equal to a specification function on byte sequences
(`Decode…` / `…Bytes`). The round trips, size laws and error cases are
`ensures` clauses on those functions and lemmas about them. The USLP
serialiser is written as methods over a `ByteVector` class (a
`std::vector<uint8_t>` grown in place). Each one is proved equal to a
function giving the bytes it emits, and the layout properties are lemmas on
those functions.

## Model

| member | source | states |
|---|---|---|
| Bytes.Be32RoundTrip | pvdx/src/uplink.rs:333-339 | reading a big-endian u32 back from its four bytes gives the value, whatever follows |
| Bytes.ReadBe32Inverse | pvdx/src/uplink.rs:313-319 | re-encoding a u32 read from at least four bytes gives back exactly those four bytes |
| Bytes.Be16RoundTrip | spp/src/space_packet.rs:96-98 | reading a big-endian u16 back from its two bytes gives the value, whatever follows |
| Bytes.Reader.ReadExact | pvdx/src/uplink.rs:240 | `read_exact` consumes the next n bytes, or fails with UnexpectedEof when fewer remain |
| Bytes.Reader.ReadU8 | pvdx/src/uplink.rs:168 | one byte, or UnexpectedEof when none remains |
| Bytes.Reader.ReadU16Be | pvdx/src/uplink.rs:244 | two bytes read most significant first, or UnexpectedEof when fewer than two remain |
| Bytes.Reader.ReadU32Be | pvdx/src/uplink.rs:243 | four bytes read most significant first, or UnexpectedEof when fewer than four remain |
| Bytes.Reader.ReadUpTo | spp/src/space_packet.rs:139-141 | `take(n).read_to_end` returns the next min(n, remaining) bytes and never fails |
| Bytes.Writer.WriteAll | pvdx/src/uplink.rs:258 | `write_all` appends the bytes to the buffer |
| Bytes.Writer.WriteU8 | pvdx/src/uplink.rs:145 | appends one byte |
| Bytes.Writer.WriteU16Be | pvdx/src/uplink.rs:261 | appends the two big-endian bytes of the value |
| Bytes.Writer.WriteU32Be | pvdx/src/uplink.rs:260 | appends the four big-endian bytes of the value |
| Uplink.CmdType | pvdx/src/uplink.rs:105-121 | the tag of every command is below 13 |
| Uplink.DataSize | pvdx/src/uplink.rs:123-139 | the recorded payload size of every command equals the number of bytes `from_bytes` reads for its tag |
| Uplink.AdcsUpdateBytes | pvdx/src/uplink.rs:332-342 | `to_writer` emits 28 bytes |
| Uplink.AdcsUpdateRoundTrip | pvdx/src/uplink.rs:312-342 | an ADCS update read back from its 28 bytes is the same update, whatever follows |
| Uplink.DecodeAdcsUpdate | pvdx/src/uplink.rs:312-330 | the update decodes exactly when at least 28 bytes remain; otherwise UnexpectedEof |
| Uplink.DecodeAdcsUpdateInverse | pvdx/src/uplink.rs:312-342 | re-encoding a decoded update reproduces the 28 bytes that were read |
| Uplink.AdcsUpdateBytesFields | pvdx/src/uplink.rs:332-342 | the update's bytes are its seven big-endian words in field order |
| Uplink.CommandBytes | pvdx/src/uplink.rs:141-161 | a command's payload is exactly `data_size` bytes long |
| Uplink.DecodeCommand | pvdx/src/uplink.rs:163-224 | a tag of 13 or more is InvalidData; a known tag succeeds exactly when the slice holds its fixed read (Reboot always succeeds) and otherwise fails with UnexpectedEof; a decoded command carries the tag it was decoded under |
| Uplink.CommandRoundTrip | pvdx/src/uplink.rs:105-224 | every command decodes back to itself under its own tag (tag 7 PictureCapture, tag 8 PictureSend), whatever follows |
| Uplink.DecodeCommandInverse | pvdx/src/uplink.rs:141-224 | a successful decode re-encodes to exactly the bytes it read |
| Uplink.PacketHeaderBytes | pvdx/src/uplink.rs:257-265 | the packet header is 16 bytes |
| Uplink.DecodePacketHeader | pvdx/src/uplink.rs:238-255 | the packet header decodes exactly when 16 bytes remain; otherwise UnexpectedEof |
| Uplink.PacketHeaderRoundTrip | pvdx/src/uplink.rs:238-265 | `from_reader` inverts `to_writer` for the packet header, pads included |
| Uplink.DecodePacketHeaderInverse | pvdx/src/uplink.rs:238-265 | re-encoding a decoded packet header reproduces the 16 bytes read |
| Uplink.CommandHeaderBytes | pvdx/src/uplink.rs:290-296 | a command sub-header is 8 bytes |
| Uplink.DecodeCommandHeader | pvdx/src/uplink.rs:277-288 | a sub-header decodes exactly when 8 bytes remain; otherwise UnexpectedEof |
| Uplink.CommandHeaderRoundTrip | pvdx/src/uplink.rs:277-296 | `from_reader` inverts `to_writer` for a sub-header, pad included |
| Uplink.DecodeCommandHeaderInverse | pvdx/src/uplink.rs:277-296 | re-encoding a decoded sub-header reproduces the 8 bytes read |
| Uplink.HeaderFor | pvdx/src/uplink.rs:29-33 | the sub-header derived from a command has a zero pad, a `cmd_sz` equal to the payload's length, and a tag under which that payload decodes back to the command |
| Uplink.HeadersFor | pvdx/src/uplink.rs:27-34 | one sub-header per command, in order, each the sub-header derived from that command |
| Uplink.New | pvdx/src/uplink.rs:12-41 | `new` keeps the callsign and the commands, zeroes every pad, and gives each command a sub-header with its tag and its `data_size` |
| Uplink.CountField | pvdx/src/uplink.rs:13 | `len() as u16` is the number of commands below 65536 |
| Uplink.SizeField | pvdx/src/uplink.rs:14-17 | the u32 `size` is 16 + 8·n + the sum of the payload sizes, without wrap-around, below 65536 commands |
| Uplink.SumDataSizesBound | pvdx/src/uplink.rs:16 | the payload sizes sum to at most 8192 per command |
| Uplink.NewExample | pvdx/src/uplink.rs:12-41 | a Reboot and a SetTime give n_cmds 2, size 36 and sub-headers (6, 0) and (9, 4) |
| Uplink.PacketBytes | pvdx/src/uplink.rs:69-84 | the header of every encoded packet decodes back to the packet's header, whatever its sub-headers and commands |
| Uplink.PacketBytesLength | pvdx/src/uplink.rs:69-84 | `to_bytes` is 16 + 8 per sub-header + the sum of the payload sizes long |
| Uplink.NewEncodedSize | pvdx/src/uplink.rs:12-84 | for a packet built by `new` with fewer than 65536 commands, the encoding is exactly `header.size` bytes |
| Uplink.DecodeCommandHeaders | pvdx/src/uplink.rs:48-52 | reading n sub-headers succeeds exactly when 8·n bytes remain and yields n of them; otherwise UnexpectedEof |
| Uplink.DecodeCommands | pvdx/src/uplink.rs:54-60 | the second loop succeeds exactly when every sub-header has a known tag whose `cmd_sz` covers that tag's fixed read and the `cmd_sz` fields together fit the input; on success it yields one command per sub-header, each carrying its sub-header's tag, the first being the command decoded from the first `cmd_sz` bytes (any excess over the fixed read ignored); it fails only with UnexpectedEof or, when some tag is 13 or more, InvalidData; with known tags only, payloads running past the input give UnexpectedEof; a first unknown tag whose payload is present gives InvalidData |
| Uplink.DecodePacket | pvdx/src/uplink.rs:43-67 | `from_bytes` succeeds exactly when the header and the `n_cmds` sub-headers are present, every sub-header has a known tag whose `cmd_sz` covers its fixed read, and 16 + 8·n + the sum of the `cmd_sz` fields fits the input; it fails with UnexpectedEof when the input ends before the header, before the sub-headers, or (all tags known) before the payloads end; InvalidData only when all sub-headers were read and one has a tag of 13 or more; on success the counts agree and every command carries its sub-header's tag |
| Uplink.DecodePacketStages | pvdx/src/uplink.rs:43-67 | `from_bytes` returns the error of its first failing stage (header, sub-header loop, payload loop), and when all three succeed the packet is made of their results |
| Uplink.UnknownTagRejected | pvdx/src/uplink.rs:217-222 | a packet whose first sub-header has a tag of 13 or more, with that payload present, is rejected with InvalidData |
| Uplink.CommandHeadersRoundTrip | pvdx/src/uplink.rs:48-52 | n encoded sub-headers read back as themselves, whatever follows |
| Uplink.CommandsRoundTrip | pvdx/src/uplink.rs:54-60 | encoded payloads read back as themselves when each sub-header carries its command's tag and size |
| Uplink.PacketRoundTrip | pvdx/src/uplink.rs:43-84 | every packet whose sub-headers agree with its commands decodes back to itself; `size` and the pads are carried verbatim |
| Uplink.NewRoundTrip | pvdx/src/uplink.rs:12-84 | a packet built by `new` from fewer than 65536 commands decodes back to itself |
| Uplink.ReadAdcsUpdate | pvdx/src/uplink.rs:312-330 | the cursor reader returns DecodeAdcsUpdate of the remaining input and consumes 28 bytes on success |
| Uplink.WriteAdcsUpdate | pvdx/src/uplink.rs:332-342 | the writer appends exactly the update's 28 bytes |
| Uplink.CommandToBytes | pvdx/src/uplink.rs:141-161 | the cursor writer produces CommandBytes |
| Uplink.CommandFromBytes | pvdx/src/uplink.rs:163-224 | the cursor reader returns DecodeCommand of the slice |
| Uplink.ReadPacketHeader | pvdx/src/uplink.rs:238-255 | returns DecodePacketHeader of the remaining input and consumes 16 bytes on success |
| Uplink.WritePacketHeader | pvdx/src/uplink.rs:257-265 | appends exactly the header's 16 bytes |
| Uplink.ReadCommandHeader | pvdx/src/uplink.rs:277-288 | returns DecodeCommandHeader of the remaining input and consumes 8 bytes on success |
| Uplink.WriteCommandHeader | pvdx/src/uplink.rs:290-296 | appends exactly the sub-header's 8 bytes |
| Uplink.ReadCommandHeaders | pvdx/src/uplink.rs:48-52 | the first loop of `from_bytes` returns DecodeCommandHeaders and consumes 8·n bytes on success |
| Uplink.ReadCommands | pvdx/src/uplink.rs:54-60 | the second loop of `from_bytes` returns DecodeCommands of the remaining input and on success consumes the sum of the `cmd_sz` fields |
| Uplink.PacketFromBytes | pvdx/src/uplink.rs:43-67 | `from_bytes` returns DecodePacket |
| Uplink.WriteCommandHeaders | pvdx/src/uplink.rs:74-76 | appends every sub-header's bytes, in order |
| Uplink.WriteCommands | pvdx/src/uplink.rs:78-81 | appends every payload, in order |
| Uplink.PacketToBytes | pvdx/src/uplink.rs:69-84 | `to_bytes` returns header bytes, then all sub-headers, then all payloads |
| SpacePacket.PacketTypeToU8 | spp/src/space_packet.rs:27-34 | `u8::from` gives 0 or 1, and 1 exactly for Telecommand |
| SpacePacket.PacketTypeFromU8 | spp/src/space_packet.rs:12-25 | `try_from` succeeds exactly on 0 and 1 and is InvalidData otherwise; a success maps back to the same number |
| SpacePacket.PacketTypeRoundTrip | spp/src/space_packet.rs:12-34 | `try_from(u8::from(t)) == Ok(t)` for both packet types |
| SpacePacket.Masked | spp/src/space_packet.rs:62-101 | masking keeps every field in its bit width and leaves an in-range header unchanged |
| SpacePacket.PrimaryHeaderBytes | spp/src/space_packet.rs:87-101 | `to_writer` emits exactly 6 bytes |
| SpacePacket.DecodePrimaryHeader | spp/src/space_packet.rs:62-85 | `from_reader` succeeds exactly when 6 bytes remain, so it never fails on the packet type; decoded fields are in range and the data length is the third big-endian word |
| SpacePacket.MetadataWord | spp/src/space_packet.rs:88-92 | the metadata word holds the version in bits 15-13, the type in bit 12, the flag in bit 11 and the APID in bits 10-0, each cut to its width |
| SpacePacket.SequenceWord | spp/src/space_packet.rs:94 | the sequence word holds the sequence flag in bits 15-14 and the count in bits 13-0, each cut to its width |
| SpacePacket.PrimaryHeaderMasking | spp/src/space_packet.rs:62-101 | decoding an encoded header gives the header with its fields masked to their widths |
| SpacePacket.PrimaryHeaderRoundTrip | spp/src/space_packet.rs:62-101 | an in-range header decodes back to itself, whatever follows |
| SpacePacket.DecodePrimaryHeaderInverse | spp/src/space_packet.rs:62-101 | re-encoding a decoded header reproduces the 6 bytes read |
| SpacePacket.DecodeSpacePacket | spp/src/space_packet.rs:128-148 | `from_bytes` succeeds exactly when 6 bytes are present; there is a secondary header exactly when the flag is set; the data is the next min(data_length, remaining) bytes |
| SpacePacket.SpacePacketBytes | spp/src/space_packet.rs:150-158 | `to_bytes` is 6 + \|data\| bytes with the data copied verbatim after the header |
| SpacePacket.SpacePacketRoundTrip | spp/src/space_packet.rs:128-158 | a consistent packet decodes back to itself, trailing bytes ignored. Consistent means fields in range, \|data\| == data_length, and a secondary header exactly when flagged |
| SpacePacket.ShortPacketDecodes | spp/src/space_packet.rs:138-141 | cutting a consistent packet's data short still decodes, with the data cut to what is there |
| SpacePacket.ParseExample | spp/src/space_packet.rs:165-190 | the literal test bytes decode to version 7, Telecommand, no secondary header, APID 0x123, flag 3, sequence 0x1FFF, length 2, data DE AD |
| SpacePacket.RoundTripExample | spp/src/space_packet.rs:192-215 | the round-trip test packet decodes back to itself |
| SpacePacket.ReadPrimaryHeader | spp/src/space_packet.rs:62-85 | the cursor reader returns DecodePrimaryHeader and consumes 6 bytes on success |
| SpacePacket.WritePrimaryHeader | spp/src/space_packet.rs:87-101 | appends exactly the header's 6 bytes |
| SpacePacket.ReadSecondaryHeader | spp/src/space_packet.rs:111-113 | always succeeds and consumes nothing |
| SpacePacket.WriteSecondaryHeader | spp/src/space_packet.rs:115-117 | writes nothing |
| SpacePacket.SpacePacketFromBytes | spp/src/space_packet.rs:128-148 | `from_bytes` returns DecodeSpacePacket |
| SpacePacket.SpacePacketToBytes | spp/src/space_packet.rs:150-158 | `to_bytes` returns SpacePacketBytes |
| Uslp.ByteVector.PushBack | USLP/USLP.cpp:113 | `push_back` appends one byte |
| Uslp.AppendVector | USLP/USLP.cpp:83-85 | `dest` becomes its old contents followed by `src`; `src` is a value and cannot change |
| Uslp.LeBytesIndex | USLP/USLP.cpp:112-115 | byte k of the emitted bytes is the low byte of the word after k shifts by 8 |
| Uslp.ShiftBytesSucc | USLP/USLP.cpp:112-115 | one more pass of the loop shifts the word once more by 8 |
| Uslp.ShiftBytesClosed | USLP/USLP.cpp:112-115 | after k passes of the loop (k = 1..7) the word is shifted right by 8k bits |
| Uslp.LeBytesEight | USLP/USLP.cpp:112-115 | of the eight bytes emitted for a word, byte k is `(w >> 8k) & 0xFF` |
| Uslp.PrimaryHeaderWord | USLP/USLP.cpp:94-108 | the low nibble of the packed word is the low nibble of TFVN (no other field reaches bits 0-3) |
| Uslp.DefaultVersionInFirstByte | USLP/USLP.cpp:34 | a header at the default TFVN of 4 emits 4 in the low nibble of its first byte |
| Uslp.DataFieldHeaderWord | USLP/USLP.cpp:125-129 | the packed data field header word has no bits above 23, so its three emitted bytes hold all of it |
| Uslp.PrimaryHeaderBytes | USLP/USLP.cpp:93-118 | the packed primary header is 8 bytes |
| Uslp.UnpackPrimaryHeader | USLP/USLP.cpp:13-25 | reading every slot back by shift and mask gives fields that fit their widths |
| Uslp.PrimaryHeaderFieldsRecoverable | USLP/USLP.cpp:96-108 | when TFVN < 16, VCID < 64, MAPID < 16, spare < 4 and frame count length < 8, every field comes back from the packed word by shift and mask; of the frame count only its low 8 bits do |
| Uslp.FrameCountTruncated | USLP/USLP.cpp:108 | the packed word holds the frame count only through its low 8 bits |
| Uslp.FrameCountInLastByte | USLP/USLP.cpp:108-116 | when the fields fit, the last header byte is the low byte of the frame count |
| Uslp.DataFieldHeaderBytes | USLP/USLP.cpp:124-139 | the packed data field header is 3 bytes |
| Uslp.DataFieldHeaderLayout | USLP/USLP.cpp:124-139 | with rules < 8 and protocol id < 32, byte 0 is rules \| (id << 3) and bytes 1-2 are the pointer, low byte first |
| Uslp.DataFieldBytes | USLP/USLP.cpp:141-159 | the packed data field is 6 + 3 + \|TFDZ\| + 16 bytes |
| Uslp.TransferFrameBytes | USLP/USLP.cpp:181-196 | the frame is 8 + \|TFIZ\| + the data field's length + 4 + 4 bytes |
| Uslp.TransferFrameParts | USLP/USLP.cpp:181-196 | the frame is 8 + \|TFIZ\| + 25 + \|TFDZ\| + 4 + 4 bytes, made of the five parts in order, each cut back out at its offset |
| Uslp.OcfIndependentOfFlag | USLP/USLP.cpp:181-196 | the OCF is emitted whatever the OCF flag says; everything after the header is unchanged by the flag |
| Uslp.PackLeBytes | USLP/USLP.cpp:110-117 | the push-low-byte-then-shift loop emits the word's n low bytes, least significant first |
| Uslp.PackPrimaryHeader | USLP/USLP.cpp:93-118 | `packPrimaryHeader` returns PrimaryHeaderBytes |
| Uslp.PackInsertZone | USLP/USLP.cpp:120-122 | `packInsertZone` returns the insert zone's bytes unchanged |
| Uslp.PackDataFieldHeader | USLP/USLP.cpp:124-139 | `packDataFieldHeader` returns DataFieldHeaderBytes |
| Uslp.PackDataField | USLP/USLP.cpp:141-159 | `packDataField` is security header, header bytes, data zone, security trailer |
| Uslp.PackQuad | USLP/USLP.cpp:164-166 | the push loop over a four-byte array returns exactly those four bytes |
| Uslp.PackOperationalControlField | USLP/USLP.cpp:161-169 | returns the four stored OCF bytes unchanged |
| Uslp.PackFrameErrorControlField | USLP/USLP.cpp:171-179 | returns the four stored FECF bytes unchanged |
| Uslp.PackTransferFrame | USLP/USLP.cpp:181-196 | `packTransferFrame` returns TransferFrameBytes, the five parts in order |

## Left out

- The `byteorder`/`std::io` machinery: `Cursor` is a byte sequence plus a position, and `io::Error` is reduced to the two kinds the codecs raise. The error messages are not modelled.
- Writing into a `Vec` cannot fail, so `to_bytes`/`to_writer` return bytes rather than `io::Result`.
- `f32` fields of `ADCSUpdate` are kept as their 32-bit IEEE-754 patterns. No float arithmetic, NaN or rounding is modelled.
- Uplink.CountField: the contract states the count only for fewer than 65536 commands. Above that, `New` still models `len() as u16` truncation. A debug build's overflow panic is not modelled.
- Uplink.SizeField: the contract states the size only for fewer than 65536 commands. Above that, `New` still models the wrapping u32 sum as a release build computes it. A debug build's overflow panic is not modelled.
- `PacketTypeFromU8` after `& 0x1` cannot fail. DecodePrimaryHeader therefore takes its value directly, and no failure path from it exists in the model.
- Uplink `from_bytes` trusts each `cmd_sz`. The model does too: it decodes the tag's fixed prefix of the `cmd_sz` bytes and ignores the rest. A `cmd_sz` below the tag's fixed read fails with UnexpectedEof, so every sub-header of a decoded packet covers its tag's read. The header's `size` is never checked.
- Uplink.DecodeCommands: the zeroed buffer of `cmd_sz` bytes that the source allocates before `read_exact` is not modelled. On a large `cmd_sz` the source may panic (capacity overflow) or abort (allocation failure), where the model returns UnexpectedEof. `DecodePacket` inherits this.
- The Space Packet data field: the code reads min(data_length, remaining) bytes, so short data is not an error, and the model does the same.
- `packPrimaryHeader` and `packDataFieldHeader` accumulate thirteen and three `|=` into a zero word. The model computes that word as one OR expression (`PrimaryHeaderWord`, `DataFieldHeaderWord`), which is the same value because OR is associative. The emitting loop stays a loop (`PackLeBytes`).
- `PackDataFieldHeader` shifts the zero-extended 64-bit copy of the 32-bit word. This emits the same three bytes, because the word has no bits above 23 (the contract of `DataFieldHeaderWord`).
- `appendVector`'s `const&` source is a value, so its being unchanged holds by construction. Aliasing of `dest` and `src` is not modelled.
- The `TFVN = 4` member default is the constant `DefaultTFVN`, and `DefaultVersionInFirstByte` states what a header at that default emits. C++ default initialisation itself is not modelled.
- The FECF CRC is not computed by the source and is not modelled; the FECF bytes are copied as stored.
- `main`, the commented pseudocode in `USLP/USLP.cpp`, the repository-root `USLP.cpp` and `spp/notes/cpp_struct.cpp` have no behaviour to model.
- Memory-layout attributes (`#[repr(C, align(4))]`) and all transport or radio I/O are out of scope.

=== FILE: bytes.dfy ===
/**
 * Primitive field codec shared by the uplink and space-packet codecs:
 * unsigned integer types of fixed width, big-endian encoding of 16- and
 * 32-bit values, a forward-only reader over a byte slice (Rust's
 * `Cursor<&[u8]>` with `ReadBytesExt`) and a growing writer (`Cursor<Vec<u8>>`
 * with `WriteBytesExt`).
 *
 * `std::io::Error` is collapsed into the two kinds the codecs can raise.
 */
module Bytes {

  type u8 = x: int | 0 <= x < 0x100
  type u16 = x: int | 0 <= x < 0x1_0000
  type u32 = x: int | 0 <= x < 0x1_0000_0000

  /** The two `io::ErrorKind`s the codecs produce. */
  datatype ErrorKind = UnexpectedEof | InvalidData

  /** `std::io::Result<T>`, usable with `:-` the way Rust uses `?`. */
  datatype Result<+T> = Ok(value: T) | Err(error: ErrorKind) {
    predicate IsFailure() { Err? }

    function PropagateFailure<U>(): Result<U>
      requires Err?
    {
      Err(error)
    }

    function Extract(): T
      requires Ok?
    {
      value
    }
  }

  function Min(a: int, b: int): int
  {
    if a <= b then a else b
  }

  // ---------------------------------------------------------------------
  // Big-endian encoding (`write_u16::<BigEndian>`, `read_u16::<BigEndian>`, ...)
  // ---------------------------------------------------------------------

  /** The two bytes of `x`, most significant first. */
  function Be16(x: u16): (r: seq<u8>)
    ensures |r| == 2
  {
    [x / 0x100, x % 0x100]
  }

  /** The value of the first two bytes of `s`, read most significant first. */
  function ReadBe16(s: seq<u8>): (x: u16)
    requires |s| >= 2
  {
    s[0] as int * 0x100 + s[1]
  }

  /** The four bytes of `x`, most significant first. */
  function Be32(x: u32): (r: seq<u8>)
    ensures |r| == 4
  {
    Be16(x / 0x1_0000) + Be16(x % 0x1_0000)
  }

  /** The value of the first four bytes of `s`, read most significant first. */
  function ReadBe32(s: seq<u8>): (x: u32)
    requires |s| >= 4
  {
    ReadBe16(s) as int * 0x1_0000 + ReadBe16(s[2..])
  }

  lemma Be16RoundTrip(x: u16, rest: seq<u8>)
    ensures ReadBe16(Be16(x) + rest) == x
  {
  }

  lemma ReadBe16Inverse(s: seq<u8>)
    requires |s| >= 2
    ensures Be16(ReadBe16(s)) == s[..2]
  {
  }

  lemma {:induction false} Be32RoundTrip(x: u32, rest: seq<u8>)
    ensures ReadBe32(Be32(x) + rest) == x
  {
    var s := Be32(x) + rest;
    Be16RoundTrip(x / 0x1_0000, Be16(x % 0x1_0000) + rest);
    assert s[2..] == Be16(x % 0x1_0000) + rest;
    Be16RoundTrip(x % 0x1_0000, rest);
  }

  lemma {:induction false} ReadBe32Inverse(s: seq<u8>)
    requires |s| >= 4
    ensures Be32(ReadBe32(s)) == s[..4]
  {
    var x := ReadBe32(s);
    assert x / 0x1_0000 == ReadBe16(s);
    assert x % 0x1_0000 == ReadBe16(s[2..]);
    ReadBe16Inverse(s);
    ReadBe16Inverse(s[2..]);
    assert s[..4] == s[..2] + s[2..][..2];
  }

  // ---------------------------------------------------------------------
  // Concatenation of encoded records (the `for x in xs { x.to_writer(..) }` loops)
  // ---------------------------------------------------------------------

  /** The encodings `f(xs[0]) + f(xs[1]) + ...` written one after another. */
  function Flatten<T>(xs: seq<T>, f: T -> seq<u8>): seq<u8>
  {
    if xs == [] then [] else f(xs[0]) + Flatten(xs[1..], f)
  }

  lemma FlattenCons<T>(x: T, xs: seq<T>, f: T -> seq<u8>)
    ensures Flatten([x] + xs, f) == f(x) + Flatten(xs, f)
  {
    assert ([x] + xs)[1..] == xs;
  }

  lemma {:induction false} FlattenSnoc<T>(xs: seq<T>, x: T, f: T -> seq<u8>)
    ensures Flatten(xs + [x], f) == Flatten(xs, f) + f(x)
  {
    if xs == [] {
      assert [x][1..] == [];
    } else {
      assert (xs + [x])[1..] == xs[1..] + [x];
      FlattenSnoc(xs[1..], x, f);
    }
  }

  /** When every encoding has `k` bytes, `n` records take `k * n` bytes. */
  lemma {:induction false} FlattenFixedLength<T>(xs: seq<T>, f: T -> seq<u8>, k: nat)
    requires forall x :: |f(x)| == k
    ensures |Flatten(xs, f)| == k * |xs|
  {
    if xs != [] {
      FlattenFixedLength(xs[1..], f, k);
    }
  }

  /** `n` big-endian 32-bit words read one after another. */
  function ReadBe32Words(s: seq<u8>, n: nat): (ws: seq<u32>)
    requires |s| >= 4 * n
    ensures |ws| == n
  {
    if n == 0 then [] else [ReadBe32(s)] + ReadBe32Words(s[4..], n - 1)
  }

  lemma ReadBe32WordsAt(s: seq<u8>, n: nat)
    requires |s| >= 4 * n
    ensures forall k :: 0 <= k < n ==> ReadBe32Words(s, n)[k] == ReadBe32(s[4 * k..])
  {
    if n > 0 {
      ReadBe32WordsAt(s[4..], n - 1);
      forall k | 1 <= k < n
        ensures ReadBe32Words(s, n)[k] == ReadBe32(s[4 * k..])
      {
        assert s[4..][4 * (k - 1)..] == s[4 * k..];
      }
    }
  }

  lemma {:induction false} Be32WordsRoundTrip(ws: seq<u32>, rest: seq<u8>)
    ensures |Flatten(ws, Be32)| == 4 * |ws|
    ensures ReadBe32Words(Flatten(ws, Be32) + rest, |ws|) == ws
  {
    if ws != [] {
      var tail := Flatten(ws[1..], Be32) + rest;
      Be32WordsRoundTrip(ws[1..], rest);
      assert Flatten(ws, Be32) + rest == Be32(ws[0]) + tail;
      Be32RoundTrip(ws[0], tail);
      assert (Be32(ws[0]) + tail)[4..] == tail;
      assert [ws[0]] + ws[1..] == ws;
    }
  }

  lemma {:induction false} ReadBe32WordsInverse(s: seq<u8>, n: nat)
    requires |s| >= 4 * n
    ensures Flatten(ReadBe32Words(s, n), Be32) == s[..4 * n]
  {
    if n > 0 {
      var ws := ReadBe32Words(s, n);
      ReadBe32WordsInverse(s[4..], n - 1);
      ReadBe32Inverse(s);
      assert ws[1..] == ReadBe32Words(s[4..], n - 1);
      assert s[..4 * n] == s[..4] + s[4..][..4 * (n - 1)];
    }
  }

  // ---------------------------------------------------------------------
  // Reader: `Cursor<&[u8]>` with a position that only moves forward
  // ---------------------------------------------------------------------

  class Reader {
    const data: seq<u8>
    var pos: nat

    constructor (bytes: seq<u8>)
      ensures Valid() && data == bytes && pos == 0 && Remaining() == bytes
    {
      data := bytes;
      pos := 0;
    }

    ghost predicate Valid()
      reads this
    {
      pos <= |data|
    }

    /** The bytes not yet consumed. */
    function Remaining(): seq<u8>
      reads this
      requires Valid()
    {
      data[pos..]
    }

    /**
     * `read_exact`: on success the next `n` bytes are consumed; on a short
     * read the cursor is left at the end of the input (as `Cursor` does).
     */
    method ReadExact(n: nat) returns (r: Result<seq<u8>>)
      requires Valid()
      modifies this
      ensures Valid()
      ensures n <= |old(Remaining())| ==> r == Ok(old(Remaining())[..n]) && Remaining() == old(Remaining())[n..]
      ensures |old(Remaining())| < n ==> r == Err(UnexpectedEof) && Remaining() == []
    {
      if n <= |data| - pos {
        assert data[pos..pos + n] == data[pos..][..n];
        r := Ok(data[pos..pos + n]);
        pos := pos + n;
      } else {
        pos := |data|;
        r := Err(UnexpectedEof);
      }
    }

    method ReadU8() returns (r: Result<u8>)
      requires Valid()
      modifies this
      ensures Valid()
      ensures 1 <= |old(Remaining())| ==> r == Ok(old(Remaining())[0]) && Remaining() == old(Remaining())[1..]
      ensures |old(Remaining())| < 1 ==> r == Err(UnexpectedEof)
    {
      var b :- ReadExact(1);
      r := Ok(b[0]);
    }

    method ReadU16Be() returns (r: Result<u16>)
      requires Valid()
      modifies this
      ensures Valid()
      ensures 2 <= |old(Remaining())| ==> r == Ok(ReadBe16(old(Remaining()))) && Remaining() == old(Remaining())[2..]
      ensures |old(Remaining())| < 2 ==> r == Err(UnexpectedEof)
    {
      var b :- ReadExact(2);
      r := Ok(ReadBe16(b));
    }

    /** `read_u32::<BigEndian>`, and `read_f32::<BigEndian>` on the bit pattern. */
    method ReadU32Be() returns (r: Result<u32>)
      requires Valid()
      modifies this
      ensures Valid()
      ensures 4 <= |old(Remaining())| ==> r == Ok(ReadBe32(old(Remaining()))) && Remaining() == old(Remaining())[4..]
      ensures |old(Remaining())| < 4 ==> r == Err(UnexpectedEof)
      ensures r.Ok? ==> pos == old(pos) + 4
    {
      var b :- ReadExact(4);
      assert b[2..] == old(Remaining())[2..][..2];
      r := Ok(ReadBe32(b));
    }

    /** `take(n).read_to_end(..)`: whatever is left, up to `n` bytes; never fails. */
    method ReadUpTo(n: nat) returns (r: seq<u8>)
      requires Valid()
      modifies this
      ensures Valid()
      ensures r == old(Remaining())[..Min(n, |old(Remaining())|)]
      ensures Remaining() == old(Remaining())[Min(n, |old(Remaining())|)..]
    {
      var k := Min(n, |data| - pos);
      r := data[pos..pos + k];
      pos := pos + k;
    }
  }

  // ---------------------------------------------------------------------
  // Writer: `Cursor<Vec<u8>>`, every write appends; writing to a Vec cannot fail
  // ---------------------------------------------------------------------

  class Writer {
    var buf: seq<u8>

    constructor ()
      ensures buf == []
    {
      buf := [];
    }

    method WriteAll(bytes: seq<u8>)
      modifies this
      ensures buf == old(buf) + bytes
    {
      buf := buf + bytes;
    }

    method WriteU8(x: u8)
      modifies this
      ensures buf == old(buf) + [x]
    {
      buf := buf + [x];
    }

    method WriteU16Be(x: u16)
      modifies this
      ensures buf == old(buf) + Be16(x)
    {
      buf := buf + Be16(x);
    }

    /** `write_u32::<BigEndian>`, and `write_f32::<BigEndian>` on the bit pattern. */
    method WriteU32Be(x: u32)
      modifies this
      ensures buf == old(buf) + Be32(x)
    {
      buf := buf + Be32(x);
    }
  }
}

=== FILE: space_packet.dfy ===
/**
 * CCSDS Space Packet codec: the six-byte primary header (packet version
 * number, packet type, secondary header flag, APID, sequence flags, packet
 * sequence count, data length), an optional and always empty secondary
 * header, and the packet data.
 *
 * The Rust code packs the header fields with shifts, masks and ORs on `u16`.
 * Here a left shift by `k` on a `u16` is a multiplication by 2^k of the
 * operand reduced modulo 2^(16-k) (the bits shifted out are lost), a right
 * shift is a division, `& (2^k - 1)` is `% 2^k`, and the OR of fields that
 * occupy disjoint bit ranges is their sum.
 */
module SpacePacket {
  import opened Bytes

  datatype Option<+T> = None | Some(value: T)

  /** The size of the primary header on the wire. */
  const PrimaryHeaderSize := 6

  // ---------------------------------------------------------------------
  // PacketType
  // ---------------------------------------------------------------------

  datatype PacketType = Telemetry | Telecommand

  /** `From<PacketType> for u8`. */
  function PacketTypeToU8(pt: PacketType): (v: u8)
    ensures v <= 1
    ensures v == 1 <==> pt == Telecommand
  {
    match pt
    case Telemetry => 0
    case Telecommand => 1
  }

  /** `TryFrom<u8> for PacketType`: 0 and 1 are the only valid values. */
  function PacketTypeFromU8(value: u8): (r: Result<PacketType>)
    ensures r.Ok? <==> value <= 1
    ensures r.Err? ==> r.error == InvalidData
    ensures r.Ok? ==> PacketTypeToU8(r.value) == value
  {
    match value
    case 0 => Ok(Telemetry)
    case 1 => Ok(Telecommand)
    case _ => Err(InvalidData)
  }

  lemma PacketTypeRoundTrip(pt: PacketType)
    ensures PacketTypeFromU8(PacketTypeToU8(pt)) == Ok(pt)
  {
  }

  // ---------------------------------------------------------------------
  // Primary header
  // ---------------------------------------------------------------------

  datatype PrimaryHeader = PrimaryHeader(
    packetVersionNumber: u8,
    packetType: PacketType,
    secondaryHeaderFlag: bool,
    applicationProcessId: u16,
    sequenceFlag: u8,
    packetSequence: u16,
    dataLength: u16)

  /** Every field fits its bit width on the wire (3, 11, 2 and 14 bits). */
  predicate FieldsInRange(h: PrimaryHeader)
  {
    && h.packetVersionNumber < 8
    && h.applicationProcessId < 0x800
    && h.sequenceFlag < 4
    && h.packetSequence < 0x4000
  }

  /** The header as it reads back: every field cut to its bit width. */
  function Masked(h: PrimaryHeader): (m: PrimaryHeader)
    ensures FieldsInRange(m)
    ensures FieldsInRange(h) ==> m == h
  {
    h.(packetVersionNumber := h.packetVersionNumber % 8,
       applicationProcessId := h.applicationProcessId % 0x800,
       sequenceFlag := h.sequenceFlag % 4,
       packetSequence := h.packetSequence % 0x4000)
  }

  function BoolToBit(b: bool): (n: nat)
    ensures n <= 1 && (n == 1 <==> b)
  {
    if b then 1 else 0
  }

  /**
   * The first header word: version in bits 15-13, type in 12, flag in 11,
   * APID in 10-0. Unpacking it recovers each field cut to its width.
   */
  function MetadataWord(h: PrimaryHeader): (w: u16)
    ensures w / 0x2000 == h.packetVersionNumber % 8
    ensures (w / 0x1000) % 2 == PacketTypeToU8(h.packetType)
    ensures (w / 0x800) % 2 == BoolToBit(h.secondaryHeaderFlag)
    ensures w % 0x800 == h.applicationProcessId % 0x800
  {
    var v, t, f, a := h.packetVersionNumber % 8, PacketTypeToU8(h.packetType),
                      BoolToBit(h.secondaryHeaderFlag), h.applicationProcessId % 0x800;
    var b := (v * 2 + t) * 2 + f;
    assert b * 0x800 + a == v * 0x2000 + t * 0x1000 + f * 0x800 + a;
    assert (b * 0x800 + a) / 0x800 == b && (b * 0x800 + a) % 0x800 == a;
    assert (b * 0x800 + a) / 0x1000 == b / 2 == v * 2 + t;
    assert (b * 0x800 + a) / 0x2000 == (v * 2 + t) / 2 == v;
    v * 0x2000 + t * 0x1000 + f * 0x800 + a
  }

  /**
   * The second header word: sequence flags in bits 15-14, sequence count in
   * 13-0. Unpacking it recovers both fields cut to their widths.
   */
  function SequenceWord(h: PrimaryHeader): (w: u16)
    ensures w / 0x4000 == h.sequenceFlag % 4
    ensures w % 0x4000 == h.packetSequence % 0x4000
  {
    (h.sequenceFlag % 4) * 0x4000 + h.packetSequence % 0x4000
  }

  /** `SpacePacketPrimaryHeader::to_writer`: the two packed words and the data length, big-endian. */
  function PrimaryHeaderBytes(h: PrimaryHeader): (r: seq<u8>)
    ensures |r| == PrimaryHeaderSize
  {
    Be16(MetadataWord(h)) + Be16(SequenceWord(h)) + Be16(h.dataLength)
  }

  /** `SpacePacketPrimaryHeader::from_reader`. */
  function DecodePrimaryHeader(s: seq<u8>): (r: Result<PrimaryHeader>)
    ensures r.Ok? <==> |s| >= PrimaryHeaderSize
    ensures r.Err? ==> r.error == UnexpectedEof
    ensures r.Ok? ==> FieldsInRange(r.value) && r.value.dataLength == ReadBe16(s[4..])
  {
    if |s| < 2 then Err(UnexpectedEof)
    else
      var metadata := ReadBe16(s);
      // `try_from` cannot fail here: its operand is masked to one bit.
      var packetType := PacketTypeFromU8((metadata / 0x1000) % 2).value;
      if |s| < 4 then Err(UnexpectedEof)
      else
        var sequence := ReadBe16(s[2..]);
        if |s| < 6 then Err(UnexpectedEof)
        else
          Ok(PrimaryHeader(
            metadata / 0x2000,
            packetType,
            (metadata / 0x800) % 2 == 1,
            metadata % 0x800,
            sequence / 0x4000,
            sequence % 0x4000,
            ReadBe16(s[4..])))
  }

  /** Every metadata word is the sum of its four fields in place. */
  lemma UnpackMetadata(w: u16)
    ensures w == (w / 0x2000) * 0x2000 + ((w / 0x1000) % 2) * 0x1000 + ((w / 0x800) % 2) * 0x800 + w % 0x800
  {
    var b := w / 0x800;
    assert w == b * 0x800 + w % 0x800;
    assert w / 0x1000 == b / 2;
    assert w / 0x2000 == b / 4;
    assert b == (b / 4) * 4 + ((b / 2) % 2) * 2 + b % 2;
  }

  /**
   * Decoding what `to_writer` wrote gives back the header with every field
   * cut to its bit width: the bits of an over-wide field are lost.
   */
  lemma {:induction false} PrimaryHeaderMasking(h: PrimaryHeader, rest: seq<u8>)
    ensures DecodePrimaryHeader(PrimaryHeaderBytes(h) + rest) == Ok(Masked(h))
  {
    var s := PrimaryHeaderBytes(h) + rest;
    Be16RoundTrip(MetadataWord(h), s[2..]);
    assert s[2..] == Be16(SequenceWord(h)) + s[4..];
    Be16RoundTrip(SequenceWord(h), s[4..]);
    assert s[4..] == Be16(h.dataLength) + rest;
    Be16RoundTrip(h.dataLength, rest);
  }

  /** Headers whose fields fit their widths survive the round trip unchanged. */
  lemma PrimaryHeaderRoundTrip(h: PrimaryHeader, rest: seq<u8>)
    requires FieldsInRange(h)
    ensures DecodePrimaryHeader(PrimaryHeaderBytes(h) + rest) == Ok(h)
  {
    PrimaryHeaderMasking(h, rest);
  }

  /** Two metadata words with the same four fields are the same word. */
  lemma SameMetadataFields(m: u16, w: u16)
    requires m / 0x2000 == w / 0x2000 && (m / 0x1000) % 2 == (w / 0x1000) % 2
    requires (m / 0x800) % 2 == (w / 0x800) % 2 && m % 0x800 == w % 0x800
    ensures m == w
  {
    UnpackMetadata(m);
    UnpackMetadata(w);
  }

  /** The decoded header packs back into the two words it was read from. */
  lemma DecodedWords(s: seq<u8>)
    requires |s| >= PrimaryHeaderSize
    ensures MetadataWord(DecodePrimaryHeader(s).value) == ReadBe16(s)
    ensures SequenceWord(DecodePrimaryHeader(s).value) == ReadBe16(s[2..])
  {
    var w, q := ReadBe16(s), ReadBe16(s[2..]);
    var h := DecodePrimaryHeader(s).value;
    var m := MetadataWord(h);
    assert h.packetVersionNumber == w / 0x2000 < 8;
    assert m / 0x2000 == w / 0x2000;
    assert (m / 0x1000) % 2 == (w / 0x1000) % 2;
    assert (m / 0x800) % 2 == (w / 0x800) % 2;
    assert m % 0x800 == w % 0x800;
    SameMetadataFields(m, w);
    assert h.sequenceFlag == q / 0x4000 < 4 && h.packetSequence == q % 0x4000;
  }

  lemma {:induction false} DecodePrimaryHeaderInverse(s: seq<u8>)
    requires |s| >= PrimaryHeaderSize
    ensures PrimaryHeaderBytes(DecodePrimaryHeader(s).value) == s[..PrimaryHeaderSize]
  {
    DecodedWords(s);
    ReadBe16Inverse(s);
    ReadBe16Inverse(s[2..]);
    ReadBe16Inverse(s[4..]);
    assert s[..6] == s[..2] + s[2..][..2] + s[4..][..2];
  }

  // ---------------------------------------------------------------------
  // Secondary header and packet
  // ---------------------------------------------------------------------

  /** The secondary header carries no fields yet; it reads and writes nothing. */
  datatype SecondaryHeader = SecondaryHeader

  datatype SpacePacket = SpacePacket(
    primaryHeader: PrimaryHeader,
    secondaryHeader: Option<SecondaryHeader>,
    data: seq<u8>)

  /**
   * `SpacePacket::from_bytes`. The data is whatever follows the header, up to
   * `data_length` bytes: a short packet is not an error, and bytes past
   * `data_length` are ignored.
   */
  function DecodeSpacePacket(bytes: seq<u8>): (r: Result<SpacePacket>)
    ensures r.Ok? <==> |bytes| >= PrimaryHeaderSize
    ensures r.Err? ==> r.error == UnexpectedEof
    ensures r.Ok? ==>
              && r.value.primaryHeader == DecodePrimaryHeader(bytes).value
              && (r.value.secondaryHeader.Some? <==> r.value.primaryHeader.secondaryHeaderFlag)
              && |r.value.data| == Min(r.value.primaryHeader.dataLength, |bytes| - PrimaryHeaderSize)
              && bytes[PrimaryHeaderSize..][..|r.value.data|] == r.value.data
  {
    var primaryHeader :- DecodePrimaryHeader(bytes);
    var secondaryHeader := if primaryHeader.secondaryHeaderFlag then Some(SecondaryHeader) else None;
    var rest := bytes[PrimaryHeaderSize..];
    Ok(SpacePacket(primaryHeader, secondaryHeader, rest[..Min(primaryHeader.dataLength, |rest|)]))
  }

  /** `SpacePacket::to_bytes`: primary header, nothing for the secondary header, then the data as is. */
  function SpacePacketBytes(p: SpacePacket): (r: seq<u8>)
    ensures |r| == PrimaryHeaderSize + |p.data|
    ensures r[PrimaryHeaderSize..] == p.data
  {
    PrimaryHeaderBytes(p.primaryHeader) + p.data
  }

  lemma OnlySecondaryHeader(sh: Option<SecondaryHeader>)
    ensures sh.Some? ==> sh == Some(SecondaryHeader)
  {
    if sh.Some? {
      match sh.value
      case SecondaryHeader =>
    }
  }

  /** The header agrees with the rest of the packet: the flag with the secondary header, the length with the data. */
  predicate Consistent(p: SpacePacket)
  {
    && FieldsInRange(p.primaryHeader)
    && (p.secondaryHeader.Some? <==> p.primaryHeader.secondaryHeaderFlag)
    && |p.data| == p.primaryHeader.dataLength
  }

  /** A consistent packet survives the round trip, whatever follows it. */
  lemma {:induction false} SpacePacketRoundTrip(p: SpacePacket, extra: seq<u8>)
    requires Consistent(p)
    ensures DecodeSpacePacket(SpacePacketBytes(p) + extra) == Ok(p)
  {
    var h := p.primaryHeader;
    var bytes := SpacePacketBytes(p) + extra;
    assert bytes == PrimaryHeaderBytes(h) + (p.data + extra);
    PrimaryHeaderRoundTrip(h, p.data + extra);
    assert bytes[PrimaryHeaderSize..] == p.data + extra;
    OnlySecondaryHeader(p.secondaryHeader);
    assert (p.data + extra)[..|p.data|] == p.data;
  }

  /** A packet cut short still decodes, with only the bytes that are there. */
  lemma ShortPacketDecodes(p: SpacePacket, k: nat)
    requires Consistent(p) && k < |p.data|
    ensures DecodeSpacePacket(SpacePacketBytes(p)[..PrimaryHeaderSize + k])
            == Ok(p.(data := p.data[..k]))
  {
    var h := p.primaryHeader;
    var bytes := SpacePacketBytes(p)[..PrimaryHeaderSize + k];
    assert bytes == PrimaryHeaderBytes(h) + p.data[..k];
    PrimaryHeaderRoundTrip(h, p.data[..k]);
    assert bytes[PrimaryHeaderSize..] == p.data[..k];
    assert Min(h.dataLength, k) == k;
    assert p.data[..k][..k] == p.data[..k];
    OnlySecondaryHeader(p.secondaryHeader);
  }

  /** The parse example: version 7, telecommand, no secondary header, APID 0x123, flags 3, count 0x1FFF, two data bytes. */
  lemma ParseExample()
    ensures DecodeSpacePacket([0xF1, 0x23, 0xDF, 0xFF, 0x00, 0x02, 0xDE, 0xAD])
            == Ok(SpacePacket(PrimaryHeader(7, Telecommand, false, 0x123, 3, 0x1FFF, 2), None, [0xDE, 0xAD]))
  {
    var bytes: seq<u8> := [0xF1, 0x23, 0xDF, 0xFF, 0x00, 0x02, 0xDE, 0xAD];
    assert ReadBe16(bytes) == 0xF123;
    assert ReadBe16(bytes[2..]) == 0xDFFF;
    assert ReadBe16(bytes[4..]) == 2;
    assert bytes[PrimaryHeaderSize..][..2] == [0xDE, 0xAD];
  }

  /** The round-trip example: version 1, telemetry, secondary header present, APID 0x2A, flags 2, count 0x1234, data 1, 2, 3. */
  lemma RoundTripExample()
    ensures var p := SpacePacket(PrimaryHeader(1, Telemetry, true, 0x2A, 2, 0x1234, 3), Some(SecondaryHeader), [1, 2, 3]);
            DecodeSpacePacket(SpacePacketBytes(p)) == Ok(p)
  {
    var p := SpacePacket(PrimaryHeader(1, Telemetry, true, 0x2A, 2, 0x1234, 3), Some(SecondaryHeader), [1, 2, 3]);
    SpacePacketRoundTrip(p, []);
    assert SpacePacketBytes(p) + [] == SpacePacketBytes(p);
  }

  // ---------------------------------------------------------------------
  // The cursor-driven implementation
  // ---------------------------------------------------------------------

  /** `SpacePacketPrimaryHeader::from_reader`. */
  method ReadPrimaryHeader(reader: Reader) returns (r: Result<PrimaryHeader>)
    requires reader.Valid()
    modifies reader
    ensures reader.Valid()
    ensures r == DecodePrimaryHeader(old(reader.Remaining()))
    ensures r.Ok? ==> reader.Remaining() == old(reader.Remaining())[PrimaryHeaderSize..]
  {
    var metadata :- reader.ReadU16Be();
    var packetVersionNumber := metadata / 0x2000;
    var packetTypeNum := (metadata / 0x1000) % 2;
    // `try_from` cannot fail here: its operand is masked to one bit.
    var packetType := PacketTypeFromU8(packetTypeNum).value;
    var secondaryHeaderFlag := (metadata / 0x800) % 2 == 1;
    var applicationProcessId := metadata % 0x800;

    var sequence :- reader.ReadU16Be();
    var sequenceFlag := sequence / 0x4000;
    var packetSequence := sequence % 0x4000;

    var dataLength :- reader.ReadU16Be();
    assert old(reader.Remaining())[2..][2..] == old(reader.Remaining())[4..];

    r := Ok(PrimaryHeader(packetVersionNumber, packetType, secondaryHeaderFlag, applicationProcessId,
                          sequenceFlag, packetSequence, dataLength));
  }

  /** `SpacePacketPrimaryHeader::to_writer`. */
  method WritePrimaryHeader(h: PrimaryHeader, writer: Writer)
    modifies writer
    ensures writer.buf == old(writer.buf) + PrimaryHeaderBytes(h)
  {
    var packetTypeU8: int := PacketTypeToU8(h.packetType);
    var metadata: u16 := (h.packetVersionNumber % 8) * 0x2000
                    + packetTypeU8 * 0x1000
                    + BoolToBit(h.secondaryHeaderFlag) * 0x800
                    + h.applicationProcessId % 0x800;
    var sequence: u16 := (h.sequenceFlag % 4) * 0x4000 + h.packetSequence % 0x4000;
    writer.WriteU16Be(metadata);
    writer.WriteU16Be(sequence);
    writer.WriteU16Be(h.dataLength);
  }

  /** `SpacePacketSecondaryHeader::from_reader`: consumes nothing and cannot fail. */
  method ReadSecondaryHeader(reader: Reader) returns (r: Result<SecondaryHeader>)
    ensures r == Ok(SecondaryHeader)
  {
    r := Ok(SecondaryHeader);
  }

  /** `SpacePacketSecondaryHeader::to_writer`: writes nothing. */
  method WriteSecondaryHeader(sh: SecondaryHeader, writer: Writer)
    ensures writer.buf == old(writer.buf)
  {
  }

  /** `SpacePacket::from_bytes`. */
  method SpacePacketFromBytes(bytes: seq<u8>) returns (r: Result<SpacePacket>)
    ensures r == DecodeSpacePacket(bytes)
  {
    var reader := new Reader(bytes);
    var primaryHeader :- ReadPrimaryHeader(reader);

    var secondaryHeader: Option<SecondaryHeader> := None;
    if primaryHeader.secondaryHeaderFlag {
      // `from_reader` of the empty secondary header cannot fail.
      var sh := ReadSecondaryHeader(reader);
      secondaryHeader := Some(sh.value);
    }

    var data := reader.ReadUpTo(primaryHeader.dataLength);
    r := Ok(SpacePacket(primaryHeader, secondaryHeader, data));
  }

  /** `SpacePacket::to_bytes` (writing into a `Vec` cannot fail, so no error is returned). */
  method SpacePacketToBytes(p: SpacePacket) returns (r: seq<u8>)
    ensures r == SpacePacketBytes(p)
  {
    var writer := new Writer();
    WritePrimaryHeader(p.primaryHeader, writer);
    if p.secondaryHeader.Some? {
      WriteSecondaryHeader(p.secondaryHeader.value, writer);
    }
    writer.WriteAll(p.data);
    r := writer.buf;
  }
}

=== FILE: uplink.dfy ===
/**
 * The uplink command packet (`pvdx/src/uplink.rs`): a 16-byte packet header,
 * one 8-byte sub-header per command, then the payloads of the commands, all
 * multi-byte fields big-endian.
 *
 * Pure parts (`cmd_type_to`, `data_size`, `UplinkPacket::new`) are functions;
 * the cursor-driven readers and writers are methods, each proved equal to a
 * specification function on byte sequences (`Decode...`, `...Bytes`), and the
 * round trips and size laws are lemmas about those functions.
 */
module Uplink {
  import opened Bytes

  type Callsign = s: seq<u8> | |s| == 6 witness [0, 0, 0, 0, 0, 0]
  type Pad = s: seq<u8> | |s| == 2 witness [0, 0]
  type Bitmap = s: seq<u8> | |s| == 8192 witness seq(8192, _ => 0)

  /** An `f32` kept as its IEEE-754 bit pattern: it is only copied, never computed with. */
  type F32Bits = u32

  const ZeroPad: Pad := [0, 0]
  const PacketHeaderSize := 16
  const CommandHeaderSize := 8
  const AdcsUpdateSize := 28
  const CommandTypeCount := 13

  datatype ADCSUpdate = ADCSUpdate(
    timestamp: u32,
    inclination: F32Bits,
    raan: F32Bits,
    eccentricity: F32Bits,
    perigeeArg: F32Bits,
    meanAnomaly: F32Bits,
    meanMotion: F32Bits)

  /** The closed set of commands; declared in the source's order (PictureSend before PictureCapture). */
  datatype Command =
    | DeviceEnable(device: u8)
    | DeviceDisable(device: u8)
    | DeviceBreak(device: u8)
    | DeviceUnbreak(device: u8)
    | DisplayUpdate(bitmap: Bitmap)
    | Sleep(duration: u32)
    | Reboot
    | PictureSend(count: u16)
    | PictureCapture(timestamp: u32)
    | SetTime(timestamp: u32)
    | SetPowerMode(mode: u8)
    | ADCSSetOpMode(mode: u8)
    | ADCSSetKeplers(update: ADCSUpdate)

  datatype UplinkPacketHeader = UplinkPacketHeader(callsign: Callsign, pad1: Pad, size: u32, nCmds: u16, pad2: Pad)

  datatype UplinkCommandHeader = UplinkCommandHeader(cmdType: u16, pad: Pad, cmdSz: u32)

  datatype UplinkPacket = UplinkPacket(
    header: UplinkPacketHeader,
    cmdHeaders: seq<UplinkCommandHeader>,
    commands: seq<Command>)

  // ---------------------------------------------------------------------
  // Command registry
  // ---------------------------------------------------------------------

  /** `cmd_type_to`: the wire tag of a command. Tag 7 is PictureCapture and tag 8 PictureSend. */
  function CmdType(c: Command): (tag: u16)
    ensures tag < CommandTypeCount
  {
    match c
    case DeviceEnable(_) => 0
    case DeviceDisable(_) => 1
    case DeviceBreak(_) => 2
    case DeviceUnbreak(_) => 3
    case DisplayUpdate(_) => 4
    case Sleep(_) => 5
    case Reboot => 6
    case PictureCapture(_) => 7
    case PictureSend(_) => 8
    case SetTime(_) => 9
    case SetPowerMode(_) => 10
    case ADCSSetOpMode(_) => 11
    case ADCSSetKeplers(_) => 12
  }

  /** How many bytes `Command::from_bytes` reads for a known tag. */
  function TagReadSize(tag: u16): nat
    requires tag < CommandTypeCount
  {
    if tag == 4 then 8192
    else if tag == 5 || tag == 7 || tag == 9 then 4
    else if tag == 6 then 0
    else if tag == 8 then 2
    else if tag == 12 then AdcsUpdateSize
    else 1
  }

  /** `data_size`: the payload size recorded for a command; it is what decoding its tag reads. */
  function DataSize(c: Command): (n: u32)
    ensures n == TagReadSize(CmdType(c))
  {
    match c
    case DeviceEnable(_) => 1
    case DeviceDisable(_) => 1
    case DeviceBreak(_) => 1
    case DeviceUnbreak(_) => 1
    case DisplayUpdate(_) => 8192
    case Sleep(_) => 4
    case Reboot => 0
    case PictureSend(_) => 2
    case PictureCapture(_) => 4
    case SetTime(_) => 4
    case SetPowerMode(_) => 1
    case ADCSSetOpMode(_) => 1
    case ADCSSetKeplers(_) => 28
  }

  // ---------------------------------------------------------------------
  // ADCSUpdate payload: a u32 timestamp and six f32 fields, big-endian
  // ---------------------------------------------------------------------

  /** The seven 32-bit fields in the order `to_writer` writes them. */
  function AdcsWords(u: ADCSUpdate): seq<u32>
  {
    [u.timestamp, u.inclination, u.raan, u.eccentricity, u.perigeeArg, u.meanAnomaly, u.meanMotion]
  }

  /** `ADCSUpdate::to_writer`: seven big-endian words. */
  function AdcsUpdateBytes(u: ADCSUpdate): (r: seq<u8>)
    ensures |r| == AdcsUpdateSize
  {
    Be32WordsRoundTrip(AdcsWords(u), []);
    Flatten(AdcsWords(u), Be32)
  }

  /** `ADCSUpdate::from_reader`. */
  function DecodeAdcsUpdate(s: seq<u8>): (r: Result<ADCSUpdate>)
    ensures r.Ok? <==> |s| >= AdcsUpdateSize
    ensures r.Err? ==> r.error == UnexpectedEof
  {
    if |s| < AdcsUpdateSize then Err(UnexpectedEof)
    else
      var w := ReadBe32Words(s, 7);
      Ok(ADCSUpdate(w[0], w[1], w[2], w[3], w[4], w[5], w[6]))
  }

  lemma AdcsUpdateRoundTrip(u: ADCSUpdate, rest: seq<u8>)
    ensures DecodeAdcsUpdate(AdcsUpdateBytes(u) + rest) == Ok(u)
  {
    Be32WordsRoundTrip(AdcsWords(u), rest);
  }

  /** The bytes of an update, field by field. */
  lemma AdcsUpdateBytesFields(u: ADCSUpdate)
    ensures AdcsUpdateBytes(u) == Be32(u.timestamp) + Be32(u.inclination) + Be32(u.raan) + Be32(u.eccentricity)
                                  + Be32(u.perigeeArg) + Be32(u.meanAnomaly) + Be32(u.meanMotion)
  {
    var t, i, r, e, p, m, mm := u.timestamp, u.inclination, u.raan, u.eccentricity, u.perigeeArg, u.meanAnomaly, u.meanMotion;
    var f6 := Flatten([mm], Be32);
    assert f6 == Be32(mm) by {
      var nil: seq<u32> := [];
      assert [mm] == [mm] + nil;
      FlattenCons(mm, nil, Be32);
    }
    var f5 := Flatten([m, mm], Be32);
    assert f5 == Be32(m) + f6 by { FlattenCons(m, [mm], Be32); }
    var f4 := Flatten([p, m, mm], Be32);
    assert f4 == Be32(p) + f5 by { FlattenCons(p, [m, mm], Be32); }
    var f3 := Flatten([e, p, m, mm], Be32);
    assert f3 == Be32(e) + f4 by { FlattenCons(e, [p, m, mm], Be32); }
    var f2 := Flatten([r, e, p, m, mm], Be32);
    assert f2 == Be32(r) + f3 by { FlattenCons(r, [e, p, m, mm], Be32); }
    var f1 := Flatten([i, r, e, p, m, mm], Be32);
    assert f1 == Be32(i) + f2 by { FlattenCons(i, [r, e, p, m, mm], Be32); }
    FlattenCons(t, [i, r, e, p, m, mm], Be32);
  }

  /** The update read from `s`, field by field, each at its own offset. */
  lemma DecodeAdcsUpdateFields(s: seq<u8>)
    requires |s| >= AdcsUpdateSize
    ensures DecodeAdcsUpdate(s) == Ok(ADCSUpdate(ReadBe32(s), ReadBe32(s[4..]), ReadBe32(s[8..]), ReadBe32(s[12..]),
                                                 ReadBe32(s[16..]), ReadBe32(s[20..]), ReadBe32(s[24..])))
  {
    ReadBe32WordsAt(s, 7);
    assert s[4 * 0..] == s;
  }

  /** The update read at offset `p` of `data`: seven words at `p`, `p + 4`, ... */
  lemma DecodeAdcsUpdateAt(data: seq<u8>, p: nat)
    requires p <= |data|
    ensures |data| < p + AdcsUpdateSize ==> DecodeAdcsUpdate(data[p..]) == Err(UnexpectedEof)
    ensures p + AdcsUpdateSize <= |data| ==>
              DecodeAdcsUpdate(data[p..]) == Ok(ADCSUpdate(ReadBe32(data[p..]), ReadBe32(data[p + 4..]), ReadBe32(data[p + 8..]),
                                                           ReadBe32(data[p + 12..]), ReadBe32(data[p + 16..]),
                                                           ReadBe32(data[p + 20..]), ReadBe32(data[p + 24..])))
  {
    if p + AdcsUpdateSize <= |data| {
      var s := data[p..];
      DecodeAdcsUpdateFields(s);
      assert s[4..] == data[p + 4..] && s[8..] == data[p + 8..] && s[12..] == data[p + 12..];
      assert s[16..] == data[p + 16..] && s[20..] == data[p + 20..] && s[24..] == data[p + 24..];
    }
  }

  lemma DecodeAdcsUpdateInverse(s: seq<u8>)
    requires |s| >= AdcsUpdateSize
    ensures AdcsUpdateBytes(DecodeAdcsUpdate(s).value) == s[..AdcsUpdateSize]
  {
    ReadBe32WordsInverse(s, 7);
    assert AdcsWords(DecodeAdcsUpdate(s).value) == ReadBe32Words(s, 7);
  }

  // ---------------------------------------------------------------------
  // Command payloads
  // ---------------------------------------------------------------------

  /** `Command::to_bytes`: the payload alone; its length is the recorded `data_size`. */
  function CommandBytes(c: Command): (r: seq<u8>)
    ensures |r| == DataSize(c)
  {
    match c
    case DeviceEnable(device) => [device]
    case DeviceDisable(device) => [device]
    case DeviceBreak(device) => [device]
    case DeviceUnbreak(device) => [device]
    case DisplayUpdate(bitmap) => bitmap
    case Sleep(duration) => Be32(duration)
    case Reboot => []
    case PictureSend(count) => Be16(count)
    case PictureCapture(timestamp) => Be32(timestamp)
    case SetTime(timestamp) => Be32(timestamp)
    case SetPowerMode(mode) => [mode]
    case ADCSSetOpMode(mode) => [mode]
    case ADCSSetKeplers(update) => AdcsUpdateBytes(update)
  }

  /**
   * `Command::from_bytes`: dispatch on the tag, then read that tag's fixed
   * prefix of `s`; bytes past the prefix are ignored.
   */
  function DecodeCommand(cmdType: u16, s: seq<u8>): (r: Result<Command>)
    ensures cmdType >= CommandTypeCount ==> r == Err(InvalidData)
    ensures cmdType < CommandTypeCount ==> (r.Ok? <==> |s| >= TagReadSize(cmdType))
    ensures cmdType < CommandTypeCount && r.Err? ==> r.error == UnexpectedEof
    ensures r.Ok? ==> CmdType(r.value) == cmdType
  {
    match cmdType
    case 0 => if |s| < 1 then Err(UnexpectedEof) else Ok(DeviceEnable(s[0]))
    case 1 => if |s| < 1 then Err(UnexpectedEof) else Ok(DeviceDisable(s[0]))
    case 2 => if |s| < 1 then Err(UnexpectedEof) else Ok(DeviceBreak(s[0]))
    case 3 => if |s| < 1 then Err(UnexpectedEof) else Ok(DeviceUnbreak(s[0]))
    case 4 => if |s| < 8192 then Err(UnexpectedEof) else Ok(DisplayUpdate(s[..8192]))
    case 5 => if |s| < 4 then Err(UnexpectedEof) else Ok(Sleep(ReadBe32(s)))
    case 6 => Ok(Reboot)
    case 7 => if |s| < 4 then Err(UnexpectedEof) else Ok(PictureCapture(ReadBe32(s)))
    case 8 => if |s| < 2 then Err(UnexpectedEof) else Ok(PictureSend(ReadBe16(s)))
    case 9 => if |s| < 4 then Err(UnexpectedEof) else Ok(SetTime(ReadBe32(s)))
    case 10 => if |s| < 1 then Err(UnexpectedEof) else Ok(SetPowerMode(s[0]))
    case 11 => if |s| < 1 then Err(UnexpectedEof) else Ok(ADCSSetOpMode(s[0]))
    case 12 =>
      var update :- DecodeAdcsUpdate(s);
      Ok(ADCSSetKeplers(update))
    case _ => Err(InvalidData)
  }

  /** Every command survives encoding and decoding under its own tag, whatever follows it. */
  lemma {:induction false} CommandRoundTrip(c: Command, rest: seq<u8>)
    ensures DecodeCommand(CmdType(c), CommandBytes(c) + rest) == Ok(c)
  {
    var s := CommandBytes(c) + rest;
    match c
    case DisplayUpdate(bitmap) =>
      assert s[..8192] == bitmap;
    case Sleep(duration) => Be32RoundTrip(duration, rest);
    case PictureSend(count) => Be16RoundTrip(count, rest);
    case PictureCapture(timestamp) => Be32RoundTrip(timestamp, rest);
    case SetTime(timestamp) => Be32RoundTrip(timestamp, rest);
    case ADCSSetKeplers(update) => AdcsUpdateRoundTrip(update, rest);
    case _ =>
  }

  /** A successful decode reproduces exactly the bytes it read. */
  lemma {:induction false} DecodeCommandInverse(cmdType: u16, s: seq<u8>)
    requires DecodeCommand(cmdType, s).Ok?
    ensures CommandBytes(DecodeCommand(cmdType, s).value) == s[..TagReadSize(cmdType)]
  {
    if cmdType == 5 || cmdType == 7 || cmdType == 9 {
      ReadBe32Inverse(s);
    } else if cmdType == 8 {
      ReadBe16Inverse(s);
    } else if cmdType == 12 {
      DecodeAdcsUpdateInverse(s);
    } else if cmdType != 4 && cmdType != 6 {
      assert s[..1] == [s[0]];
    }
  }

  // ---------------------------------------------------------------------
  // Packet header and command sub-headers
  // ---------------------------------------------------------------------

  /** `UplinkPacketHeader::to_writer`. */
  function PacketHeaderBytes(h: UplinkPacketHeader): (r: seq<u8>)
    ensures |r| == PacketHeaderSize
  {
    h.callsign + h.pad1 + Be32(h.size) + Be16(h.nCmds) + h.pad2
  }

  /** `UplinkPacketHeader::from_reader`: the pads are kept as read, not checked. */
  function DecodePacketHeader(s: seq<u8>): (r: Result<UplinkPacketHeader>)
    ensures r.Ok? <==> |s| >= PacketHeaderSize
    ensures r.Err? ==> r.error == UnexpectedEof
  {
    if |s| < PacketHeaderSize then Err(UnexpectedEof)
    else Ok(UplinkPacketHeader(s[..6], s[6..8], ReadBe32(s[8..]), ReadBe16(s[12..]), s[14..16]))
  }

  lemma {:induction false} PacketHeaderRoundTrip(h: UplinkPacketHeader, rest: seq<u8>)
    ensures DecodePacketHeader(PacketHeaderBytes(h) + rest) == Ok(h)
  {
    var s := PacketHeaderBytes(h) + rest;
    assert s[..6] == h.callsign && s[6..8] == h.pad1 && s[14..16] == h.pad2;
    assert s[8..] == Be32(h.size) + s[12..];
    Be32RoundTrip(h.size, s[12..]);
    assert s[12..] == Be16(h.nCmds) + s[14..];
    Be16RoundTrip(h.nCmds, s[14..]);
  }

  lemma {:induction false} DecodePacketHeaderInverse(s: seq<u8>)
    requires |s| >= PacketHeaderSize
    ensures PacketHeaderBytes(DecodePacketHeader(s).value) == s[..PacketHeaderSize]
  {
    ReadBe32Inverse(s[8..]);
    ReadBe16Inverse(s[12..]);
    assert s[..PacketHeaderSize] == s[..6] + s[6..8] + s[8..][..4] + s[12..][..2] + s[14..16];
  }

  /** `UplinkCommandHeader::to_writer`. */
  function CommandHeaderBytes(h: UplinkCommandHeader): (r: seq<u8>)
    ensures |r| == CommandHeaderSize
  {
    Be16(h.cmdType) + h.pad + Be32(h.cmdSz)
  }

  /** `UplinkCommandHeader::from_reader`. */
  function DecodeCommandHeader(s: seq<u8>): (r: Result<UplinkCommandHeader>)
    ensures r.Ok? <==> |s| >= CommandHeaderSize
    ensures r.Err? ==> r.error == UnexpectedEof
  {
    if |s| < CommandHeaderSize then Err(UnexpectedEof)
    else Ok(UplinkCommandHeader(ReadBe16(s), s[2..4], ReadBe32(s[4..])))
  }

  lemma {:induction false} CommandHeaderRoundTrip(h: UplinkCommandHeader, rest: seq<u8>)
    ensures DecodeCommandHeader(CommandHeaderBytes(h) + rest) == Ok(h)
  {
    var s := CommandHeaderBytes(h) + rest;
    Be16RoundTrip(h.cmdType, s[2..]);
    assert s == Be16(h.cmdType) + s[2..];
    assert s[2..4] == h.pad;
    assert s[4..] == Be32(h.cmdSz) + rest;
    Be32RoundTrip(h.cmdSz, rest);
  }

  lemma {:induction false} DecodeCommandHeaderInverse(s: seq<u8>)
    requires |s| >= CommandHeaderSize
    ensures CommandHeaderBytes(DecodeCommandHeader(s).value) == s[..CommandHeaderSize]
  {
    ReadBe16Inverse(s);
    ReadBe32Inverse(s[4..]);
    assert s[..CommandHeaderSize] == s[..2] + s[2..4] + s[4..][..4];
  }

  // ---------------------------------------------------------------------
  // UplinkPacket::new
  // ---------------------------------------------------------------------

  /** The sub-header `new` derives for a command: it lets exactly that payload be read back. */
  function HeaderFor(c: Command): (h: UplinkCommandHeader)
    ensures h.pad == ZeroPad && h.cmdSz == |CommandBytes(c)|
    ensures DecodeCommand(h.cmdType, CommandBytes(c)) == Ok(c)
  {
    CommandRoundTrip(c, []);
    assert CommandBytes(c) + [] == CommandBytes(c);
    UplinkCommandHeader(CmdType(c), ZeroPad, DataSize(c))
  }

  /** The `commands.iter().map(..).collect()` of `new`. */
  function HeadersFor(commands: seq<Command>): (hs: seq<UplinkCommandHeader>)
    ensures |hs| == |commands|
    ensures forall i :: 0 <= i < |commands| ==> hs[i] == HeaderFor(commands[i])
  {
    if commands == [] then [] else [HeaderFor(commands[0])] + HeadersFor(commands[1..])
  }

  /** Σ data_size over the commands, as an unbounded number. */
  function SumDataSizes(commands: seq<Command>): nat
  {
    if commands == [] then 0 else DataSize(commands[0]) + SumDataSizes(commands[1..])
  }

  /** Σ cmd_sz over the sub-headers, as an unbounded number. */
  function SumCmdSz(hs: seq<UplinkCommandHeader>): nat
  {
    if hs == [] then 0 else hs[0].cmdSz + SumCmdSz(hs[1..])
  }

  /**
   * `UplinkPacket::new`. `commands.len() as u16` truncates, and the size
   * arithmetic is `u32` (wrapping, as in a release build); the contracts of
   * CountField and SizeField show neither matters below 65536 commands.
   */
  function New(callsign: Callsign, commands: seq<Command>): (p: UplinkPacket)
    ensures p.header.callsign == callsign && p.header.pad1 == ZeroPad && p.header.pad2 == ZeroPad
    ensures p.commands == commands && |p.cmdHeaders| == |commands|
    ensures forall i :: 0 <= i < |commands| ==>
              && p.cmdHeaders[i].cmdType == CmdType(commands[i])
              && p.cmdHeaders[i].cmdSz == DataSize(commands[i])
              && p.cmdHeaders[i].pad == ZeroPad
  {
    var header := UplinkPacketHeader(callsign, ZeroPad, SizeField(commands), CountField(commands), ZeroPad);
    UplinkPacket(header, HeadersFor(commands), commands)
  }

  /** `commands.len() as u16`. */
  function CountField(commands: seq<Command>): (n: u16)
    ensures |commands| < 0x1_0000 ==> n == |commands|
  {
    |commands| % 0x1_0000
  }

  /** The u32 `size` of `new`: header, `n_cmds` sub-headers and every payload, each sum wrapping. */
  function SizeField(commands: seq<Command>): (size: u32)
    ensures |commands| < 0x1_0000 ==> size == PacketHeaderSize + CommandHeaderSize * |commands| + SumDataSizes(commands)
  {
    SumDataSizesBound(commands);
    SizeNoWrap(|commands|, SumDataSizes(commands));
    var cmdHeadersSize := CountField(commands) * CommandHeaderSize;
    var dataSize := SumDataSizes(commands) % 0x1_0000_0000;
    (PacketHeaderSize + cmdHeadersSize + dataSize) % 0x1_0000_0000
  }

  lemma ModSmall(x: int, m: int)
    requires 0 <= x < m
    ensures x % m == x
  {
  }

  lemma {:induction false} SumDataSizesBound(commands: seq<Command>)
    ensures SumDataSizes(commands) <= 8192 * |commands|
  {
    if commands != [] {
      SumDataSizesBound(commands[1..]);
    }
  }

  /** The u16 count and the u32 sums of `new` are exact for fewer than 65536 commands. */
  lemma SizeNoWrap(n: nat, d: nat)
    requires d <= 8192 * n
    ensures n < 0x1_0000 ==> n % 0x1_0000 == n
    ensures n < 0x1_0000 ==>
              (PacketHeaderSize + (n % 0x1_0000) * CommandHeaderSize + d % 0x1_0000_0000) % 0x1_0000_0000
              == PacketHeaderSize + CommandHeaderSize * n + d
  {
    if n < 0x1_0000 {
      ModSmall(n, 0x1_0000);
      ModSmall(d, 0x1_0000_0000);
      ModSmall(PacketHeaderSize + CommandHeaderSize * n + d, 0x1_0000_0000);
    }
  }

  /** The example of a two-command packet: Reboot then SetTime. */
  lemma NewExample()
    ensures var p := New([0x50, 0x56, 0x44, 0x58, 0x30, 0x31], [Reboot, SetTime(1700000000)]);
      && p.header.nCmds == 2
      && p.header.size == 36
      && p.cmdHeaders == [UplinkCommandHeader(6, ZeroPad, 0), UplinkCommandHeader(9, ZeroPad, 4)]
  {
    var commands := [Reboot, SetTime(1700000000)];
    assert commands[1..] == [SetTime(1700000000)];
    assert SumDataSizes(commands) == 4;
  }

  // ---------------------------------------------------------------------
  // Packet encoding and decoding (specification functions)
  // ---------------------------------------------------------------------

  /**
   * `UplinkPacket::to_bytes`: header, then every sub-header, then every
   * payload. Nothing is checked, yet the header always reads back.
   */
  function PacketBytes(p: UplinkPacket): (r: seq<u8>)
    ensures DecodePacketHeader(r) == Ok(p.header)
  {
    var body := Flatten(p.cmdHeaders, CommandHeaderBytes) + Flatten(p.commands, CommandBytes);
    PacketHeaderRoundTrip(p.header, body);
    assert PacketHeaderBytes(p.header) + body
           == PacketHeaderBytes(p.header) + Flatten(p.cmdHeaders, CommandHeaderBytes) + Flatten(p.commands, CommandBytes);
    PacketHeaderBytes(p.header) + Flatten(p.cmdHeaders, CommandHeaderBytes) + Flatten(p.commands, CommandBytes)
  }

  lemma {:induction false} FlattenCommandsLength(commands: seq<Command>)
    ensures |Flatten(commands, CommandBytes)| == SumDataSizes(commands)
  {
    if commands != [] {
      FlattenCommandsLength(commands[1..]);
    }
  }

  lemma PacketBytesLength(p: UplinkPacket)
    ensures |PacketBytes(p)| == PacketHeaderSize + CommandHeaderSize * |p.cmdHeaders| + SumDataSizes(p.commands)
  {
    FlattenFixedLength(p.cmdHeaders, CommandHeaderBytes, CommandHeaderSize);
    FlattenCommandsLength(p.commands);
  }

  /** For a packet built by `new`, the encoding is exactly as long as its header says. */
  lemma NewEncodedSize(callsign: Callsign, commands: seq<Command>)
    requires |commands| < 0x1_0000
    ensures |PacketBytes(New(callsign, commands))| == New(callsign, commands).header.size
  {
    PacketBytesLength(New(callsign, commands));
  }

  /** `n` sub-headers read one after another (the first loop of `from_bytes`). */
  function DecodeCommandHeaders(s: seq<u8>, n: nat): (r: Result<seq<UplinkCommandHeader>>)
    ensures r.Ok? <==> |s| >= CommandHeaderSize * n
    ensures r.Err? ==> r.error == UnexpectedEof
    ensures r.Ok? ==> |r.value| == n
    decreases n
  {
    if n == 0 then Ok([])
    else
      var h :- DecodeCommandHeader(s);
      var hs :- DecodeCommandHeaders(s[CommandHeaderSize..], n - 1);
      Ok([h] + hs)
  }

  /** Some sub-header carries a tag no command has. */
  predicate UnknownTag(hs: seq<UplinkCommandHeader>)
  {
    exists i :: 0 <= i < |hs| && hs[i].cmdType >= CommandTypeCount
  }

  /** A known tag whose `cmd_sz` covers the bytes `Command::from_bytes` reads for it. */
  predicate CoversFixedRead(h: UplinkCommandHeader)
  {
    h.cmdType < CommandTypeCount && h.cmdSz >= TagReadSize(h.cmdType)
  }

  /**
   * One payload per sub-header, `cmd_sz` bytes each (the second loop of
   * `from_bytes`). A payload running past the input is UnexpectedEof, and
   * InvalidData can only come from an unknown tag.
   */
  function DecodeCommands(s: seq<u8>, hs: seq<UplinkCommandHeader>): (r: Result<seq<Command>>)
    ensures r.Ok? ==> |r.value| == |hs| && SumCmdSz(hs) <= |s|
    ensures r.Ok? ==> forall i :: 0 <= i < |hs| ==> CmdType(r.value[i]) == hs[i].cmdType
    ensures r.Ok? ==> forall i :: 0 <= i < |hs| ==> CoversFixedRead(hs[i])
    ensures r.Err? ==> r.error == UnexpectedEof || UnknownTag(hs)
    ensures !UnknownTag(hs) && |s| < SumCmdSz(hs) ==> r == Err(UnexpectedEof)
    ensures hs != [] && hs[0].cmdType >= CommandTypeCount && hs[0].cmdSz <= |s| ==> r == Err(InvalidData)
    ensures (forall i :: 0 <= i < |hs| ==> CoversFixedRead(hs[i])) && SumCmdSz(hs) <= |s| ==> r.Ok?
    ensures r.Ok? && hs != [] ==> r.value[0] == DecodeCommand(hs[0].cmdType, s[..hs[0].cmdSz]).value
  {
    assert hs != [] && UnknownTag(hs[1..]) ==> UnknownTag(hs) by {
      if hs != [] && UnknownTag(hs[1..]) {
        var i :| 0 <= i < |hs[1..]| && hs[1..][i].cmdType >= CommandTypeCount;
        assert hs[i + 1] == hs[1..][i];
      }
    }

    if hs == [] then Ok([])
    else if |s| < hs[0].cmdSz then Err(UnexpectedEof)
    else
      var c :- DecodeCommand(hs[0].cmdType, s[..hs[0].cmdSz]);
      var cs :- DecodeCommands(s[hs[0].cmdSz..], hs[1..]);
      Ok([c] + cs)
  }

  /**
   * `UplinkPacket::from_bytes`. The header's `size` is not checked against
   * anything. InvalidData arises only from an unknown tag among sub-headers
   * that were read in full; with only known tags, payloads running past the
   * input are UnexpectedEof.
   */
  function DecodePacket(bytes: seq<u8>): (r: Result<UplinkPacket>)
    ensures |bytes| < PacketHeaderSize ==> r == Err(UnexpectedEof)
    ensures DecodePacketHeader(bytes).Ok?
            && |bytes| < PacketHeaderSize + CommandHeaderSize * DecodePacketHeader(bytes).value.nCmds
            ==> r == Err(UnexpectedEof)
    ensures r.Ok? ==>
              && |r.value.cmdHeaders| == r.value.header.nCmds == |r.value.commands|
              && PacketHeaderSize + CommandHeaderSize * r.value.header.nCmds + SumCmdSz(r.value.cmdHeaders) <= |bytes|
              && forall i :: 0 <= i < |r.value.commands| ==> CmdType(r.value.commands[i]) == r.value.cmdHeaders[i].cmdType
    ensures r.Ok? ==> forall i :: 0 <= i < |r.value.cmdHeaders| ==> CoversFixedRead(r.value.cmdHeaders[i])
    ensures r.Err? && r.error == InvalidData ==>
              && DecodePacketHeader(bytes).Ok?
              && |bytes| >= PacketHeaderSize + CommandHeaderSize * DecodePacketHeader(bytes).value.nCmds
              && UnknownTag(DecodeCommandHeaders(bytes[PacketHeaderSize..], DecodePacketHeader(bytes).value.nCmds).value)
    ensures DecodePacketHeader(bytes).Ok?
            && |bytes| >= PacketHeaderSize + CommandHeaderSize * DecodePacketHeader(bytes).value.nCmds
            ==> var n := DecodePacketHeader(bytes).value.nCmds;
                var hs := DecodeCommandHeaders(bytes[PacketHeaderSize..], n).value;
                !UnknownTag(hs) && |bytes| < PacketHeaderSize + CommandHeaderSize * n + SumCmdSz(hs)
                ==> r == Err(UnexpectedEof)
    ensures DecodePacketHeader(bytes).Ok?
            && |bytes| >= PacketHeaderSize + CommandHeaderSize * DecodePacketHeader(bytes).value.nCmds
            ==> var n := DecodePacketHeader(bytes).value.nCmds;
                var hs := DecodeCommandHeaders(bytes[PacketHeaderSize..], n).value;
                (forall i :: 0 <= i < |hs| ==> CoversFixedRead(hs[i]))
                && PacketHeaderSize + CommandHeaderSize * n + SumCmdSz(hs) <= |bytes|
                ==> r.Ok?
  {
    var header :- DecodePacketHeader(bytes);
    var cmdHeaders :- DecodeCommandHeaders(bytes[PacketHeaderSize..], header.nCmds);
    var commands :- DecodeCommands(bytes[PacketHeaderSize + CommandHeaderSize * header.nCmds..], cmdHeaders);
    Ok(UplinkPacket(header, cmdHeaders, commands))
  }

  // ---------------------------------------------------------------------
  // Round trip
  // ---------------------------------------------------------------------

  /**
   * The header/array agreement `new` establishes: one sub-header per command,
   * each carrying its command's tag and size, and the count in the header.
   */
  ghost predicate WellFormed(p: UplinkPacket)
  {
    && |p.cmdHeaders| == |p.commands| == p.header.nCmds
    && forall i :: 0 <= i < |p.commands| ==>
         p.cmdHeaders[i].cmdType == CmdType(p.commands[i]) && p.cmdHeaders[i].cmdSz == DataSize(p.commands[i])
  }

  lemma {:induction false} CommandHeadersRoundTrip(hs: seq<UplinkCommandHeader>, rest: seq<u8>)
    ensures DecodeCommandHeaders(Flatten(hs, CommandHeaderBytes) + rest, |hs|) == Ok(hs)
  {
    if hs != [] {
      var tail := Flatten(hs[1..], CommandHeaderBytes) + rest;
      assert Flatten(hs, CommandHeaderBytes) + rest == CommandHeaderBytes(hs[0]) + tail;
      CommandHeaderRoundTrip(hs[0], tail);
      assert (CommandHeaderBytes(hs[0]) + tail)[CommandHeaderSize..] == tail;
      CommandHeadersRoundTrip(hs[1..], rest);
      assert [hs[0]] + hs[1..] == hs;
    }
  }

  lemma {:induction false} CommandsRoundTrip(commands: seq<Command>, hs: seq<UplinkCommandHeader>, rest: seq<u8>)
    requires |hs| == |commands|
    requires forall i :: 0 <= i < |commands| ==> hs[i].cmdType == CmdType(commands[i]) && hs[i].cmdSz == DataSize(commands[i])
    ensures DecodeCommands(Flatten(commands, CommandBytes) + rest, hs) == Ok(commands)
  {
    if commands != [] {
      var c := commands[0];
      var tail := Flatten(commands[1..], CommandBytes) + rest;
      var s := CommandBytes(c) + tail;
      assert Flatten(commands, CommandBytes) + rest == s;
      assert s[..hs[0].cmdSz] == CommandBytes(c) + [];
      CommandRoundTrip(c, []);
      assert s[hs[0].cmdSz..] == tail;
      CommandsRoundTrip(commands[1..], hs[1..], rest);
      assert [c] + commands[1..] == commands;
    }
  }

  /** Every well-formed packet decodes back to itself; pads and `size` are carried verbatim. */
  lemma PacketRoundTrip(p: UplinkPacket)
    requires WellFormed(p)
    ensures DecodePacket(PacketBytes(p)) == Ok(p)
  {
    var hb := PacketHeaderBytes(p.header);
    var cb := Flatten(p.cmdHeaders, CommandHeaderBytes);
    var db := Flatten(p.commands, CommandBytes);
    var bytes := hb + cb + db;
    PacketHeaderRoundTrip(p.header, cb + db);
    assert bytes == hb + (cb + db);
    assert bytes[PacketHeaderSize..] == cb + db;
    CommandHeadersRoundTrip(p.cmdHeaders, db);
    FlattenFixedLength(p.cmdHeaders, CommandHeaderBytes, CommandHeaderSize);
    assert bytes[PacketHeaderSize + CommandHeaderSize * p.header.nCmds..] == db + [];
    CommandsRoundTrip(p.commands, p.cmdHeaders, []);
  }

  /** A packet built by `new` from fewer than 65536 commands decodes back to itself. */
  lemma NewRoundTrip(callsign: Callsign, commands: seq<Command>)
    requires |commands| < 0x1_0000
    ensures DecodePacket(PacketBytes(New(callsign, commands))) == Ok(New(callsign, commands))
  {
    PacketRoundTrip(New(callsign, commands));
  }

  /** A first sub-header with an unknown tag and its payload present makes the packet InvalidData. */
  lemma UnknownTagRejected(h: UplinkPacketHeader, hs: seq<UplinkCommandHeader>, rest: seq<u8>)
    requires |hs| == h.nCmds > 0 && hs[0].cmdType >= CommandTypeCount && hs[0].cmdSz <= |rest|
    ensures DecodePacket(PacketHeaderBytes(h) + Flatten(hs, CommandHeaderBytes) + rest) == Err(InvalidData)
  {
    var cb := Flatten(hs, CommandHeaderBytes);
    var bytes := PacketHeaderBytes(h) + cb + rest;
    PacketHeaderRoundTrip(h, cb + rest);
    assert bytes == PacketHeaderBytes(h) + (cb + rest);
    assert bytes[PacketHeaderSize..] == cb + rest;
    CommandHeadersRoundTrip(hs, rest);
    FlattenFixedLength(hs, CommandHeaderBytes, CommandHeaderSize);
    assert bytes[PacketHeaderSize + CommandHeaderSize * h.nCmds..] == rest;
    DecodePacketStages(bytes);
  }

  /**
   * The three stages of `from_bytes`: the first failing stage decides the
   * error, and when all three succeed their results make up the packet.
   */
  lemma DecodePacketStages(bytes: seq<u8>)
    ensures DecodePacketHeader(bytes).Err? ==> DecodePacket(bytes) == Err(DecodePacketHeader(bytes).error)
    ensures DecodePacketHeader(bytes).Ok? ==>
              var h := DecodePacketHeader(bytes).value;
              var hs := DecodeCommandHeaders(bytes[PacketHeaderSize..], h.nCmds);
              && (hs.Err? ==> DecodePacket(bytes) == Err(hs.error))
              && (hs.Ok? ==>
                    var cs := DecodeCommands(bytes[PacketHeaderSize + CommandHeaderSize * h.nCmds..], hs.value);
                    DecodePacket(bytes) == if cs.Ok? then Ok(UplinkPacket(h, hs.value, cs.value)) else Err(cs.error))
  {
  }

  // ---------------------------------------------------------------------
  // The cursor-driven implementation
  // ---------------------------------------------------------------------

  /** `ADCSUpdate::from_reader`. */
  method ReadAdcsUpdate(reader: Reader) returns (r: Result<ADCSUpdate>)
    requires reader.Valid()
    modifies reader
    ensures reader.Valid()
    ensures r == DecodeAdcsUpdate(old(reader.Remaining()))
    ensures r.Ok? ==> reader.Remaining() == old(reader.Remaining())[AdcsUpdateSize..]
  {
    ghost var p0 := reader.pos;
    var timestamp :- reader.ReadU32Be();
    var inclination :- reader.ReadU32Be();
    var raan :- reader.ReadU32Be();
    var eccentricity :- reader.ReadU32Be();
    var perigeeArg :- reader.ReadU32Be();
    var meanAnomaly :- reader.ReadU32Be();
    var meanMotion :- reader.ReadU32Be();
    DecodeAdcsUpdateAt(reader.data, p0);
    r := Ok(ADCSUpdate(timestamp, inclination, raan, eccentricity, perigeeArg, meanAnomaly, meanMotion));
  }

  /** `ADCSUpdate::to_writer`. */
  method WriteAdcsUpdate(u: ADCSUpdate, writer: Writer)
    modifies writer
    ensures writer.buf == old(writer.buf) + AdcsUpdateBytes(u)
  {
    writer.WriteU32Be(u.timestamp);
    writer.WriteU32Be(u.inclination);
    writer.WriteU32Be(u.raan);
    writer.WriteU32Be(u.eccentricity);
    writer.WriteU32Be(u.perigeeArg);
    writer.WriteU32Be(u.meanAnomaly);
    writer.WriteU32Be(u.meanMotion);
    AdcsUpdateBytesFields(u);
  }

  /** `Command::to_bytes` (writing into a `Vec` cannot fail, so no error is returned). */
  method CommandToBytes(c: Command) returns (r: seq<u8>)
    ensures r == CommandBytes(c)
  {
    var writer := new Writer();
    match c {
    case DeviceEnable(device) => writer.WriteU8(device);
    case DeviceDisable(device) => writer.WriteU8(device);
    case DeviceBreak(device) => writer.WriteU8(device);
    case DeviceUnbreak(device) => writer.WriteU8(device);
    case DisplayUpdate(bitmap) => writer.WriteAll(bitmap);
    case Sleep(duration) => writer.WriteU32Be(duration);
    case Reboot =>
    case PictureSend(count) => writer.WriteU16Be(count);
    case PictureCapture(timestamp) => writer.WriteU32Be(timestamp);
    case SetTime(timestamp) => writer.WriteU32Be(timestamp);
    case SetPowerMode(mode) => writer.WriteU8(mode);
    case ADCSSetOpMode(mode) => writer.WriteU8(mode);
    case ADCSSetKeplers(update) => WriteAdcsUpdate(update, writer);
    }
    r := writer.buf;
  }

  /** `Command::from_bytes`. */
  method CommandFromBytes(cmdType: u16, bytes: seq<u8>) returns (r: Result<Command>)
    ensures r == DecodeCommand(cmdType, bytes)
  {
    var reader := new Reader(bytes);
    match cmdType
    case 0 =>
      var device :- reader.ReadU8();
      r := Ok(DeviceEnable(device));
    case 1 =>
      var device :- reader.ReadU8();
      r := Ok(DeviceDisable(device));
    case 2 =>
      var device :- reader.ReadU8();
      r := Ok(DeviceBreak(device));
    case 3 =>
      var device :- reader.ReadU8();
      r := Ok(DeviceUnbreak(device));
    case 4 =>
      var bitmap :- reader.ReadExact(8192);
      r := Ok(DisplayUpdate(bitmap));
    case 5 =>
      var duration :- reader.ReadU32Be();
      r := Ok(Sleep(duration));
    case 6 =>
      r := Ok(Reboot);
    case 7 =>
      var timestamp :- reader.ReadU32Be();
      r := Ok(PictureCapture(timestamp));
    case 8 =>
      var count :- reader.ReadU16Be();
      r := Ok(PictureSend(count));
    case 9 =>
      var timestamp :- reader.ReadU32Be();
      r := Ok(SetTime(timestamp));
    case 10 =>
      var mode :- reader.ReadU8();
      r := Ok(SetPowerMode(mode));
    case 11 =>
      var mode :- reader.ReadU8();
      r := Ok(ADCSSetOpMode(mode));
    case 12 =>
      var update :- ReadAdcsUpdate(reader);
      r := Ok(ADCSSetKeplers(update));
    case _ =>
      r := Err(InvalidData);
  }

  /** `UplinkPacketHeader::from_reader`. */
  method ReadPacketHeader(reader: Reader) returns (r: Result<UplinkPacketHeader>)
    requires reader.Valid()
    modifies reader
    ensures reader.Valid()
    ensures r == DecodePacketHeader(old(reader.Remaining()))
    ensures r.Ok? ==> reader.Remaining() == old(reader.Remaining())[PacketHeaderSize..]
  {
    var callsign :- reader.ReadExact(6);
    var pad1 :- reader.ReadExact(2);
    var size :- reader.ReadU32Be();
    var nCmds :- reader.ReadU16Be();
    var pad2 :- reader.ReadExact(2);
    assert callsign == old(reader.Remaining())[..6] && pad1 == old(reader.Remaining())[6..8];
    assert pad2 == old(reader.Remaining())[14..16];
    r := Ok(UplinkPacketHeader(callsign, pad1, size, nCmds, pad2));
  }

  /** `UplinkPacketHeader::to_writer`. */
  method WritePacketHeader(h: UplinkPacketHeader, writer: Writer)
    modifies writer
    ensures writer.buf == old(writer.buf) + PacketHeaderBytes(h)
  {
    writer.WriteAll(h.callsign);
    writer.WriteAll(h.pad1);
    writer.WriteU32Be(h.size);
    writer.WriteU16Be(h.nCmds);
    writer.WriteAll(h.pad2);
  }

  /** `UplinkCommandHeader::from_reader`. */
  method ReadCommandHeader(reader: Reader) returns (r: Result<UplinkCommandHeader>)
    requires reader.Valid()
    modifies reader
    ensures reader.Valid()
    ensures r == DecodeCommandHeader(old(reader.Remaining()))
    ensures r.Ok? ==> reader.Remaining() == old(reader.Remaining())[CommandHeaderSize..]
  {
    var cmdType :- reader.ReadU16Be();
    var pad :- reader.ReadExact(2);
    var cmdSz :- reader.ReadU32Be();
    assert pad == old(reader.Remaining())[2..4];
    r := Ok(UplinkCommandHeader(cmdType, pad, cmdSz));
  }

  /** `UplinkCommandHeader::to_writer`. */
  method WriteCommandHeader(h: UplinkCommandHeader, writer: Writer)
    modifies writer
    ensures writer.buf == old(writer.buf) + CommandHeaderBytes(h)
  {
    writer.WriteU16Be(h.cmdType);
    writer.WriteAll(h.pad);
    writer.WriteU32Be(h.cmdSz);
  }

  /** `acc` followed by the decoded rest, or the failure of the rest. */
  function Prepend<T>(acc: seq<T>, r: Result<seq<T>>): Result<seq<T>>
  {
    if r.Ok? then Ok(acc + r.value) else r
  }

  /** One step of DecodeCommandHeaders: the first sub-header, then the rest. */
  lemma DecodeCommandHeadersStep(s: seq<u8>, m: nat)
    requires m > 0
    ensures DecodeCommandHeader(s).Err? ==> DecodeCommandHeaders(s, m) == Err(UnexpectedEof)
    ensures DecodeCommandHeader(s).Ok? ==>
              DecodeCommandHeaders(s, m) == Prepend([DecodeCommandHeader(s).value], DecodeCommandHeaders(s[CommandHeaderSize..], m - 1))
  {
  }

  /** One step of DecodeCommands: the first payload, then the rest. */
  lemma DecodeCommandsStep(s: seq<u8>, h: UplinkCommandHeader, hs: seq<UplinkCommandHeader>)
    ensures |s| < h.cmdSz ==> DecodeCommands(s, [h] + hs) == Err(UnexpectedEof)
    ensures h.cmdSz <= |s| && DecodeCommand(h.cmdType, s[..h.cmdSz]).Err? ==>
              DecodeCommands(s, [h] + hs) == Err(DecodeCommand(h.cmdType, s[..h.cmdSz]).error)
    ensures h.cmdSz <= |s| && DecodeCommand(h.cmdType, s[..h.cmdSz]).Ok? ==>
              DecodeCommands(s, [h] + hs)
              == Prepend([DecodeCommand(h.cmdType, s[..h.cmdSz]).value], DecodeCommands(s[h.cmdSz..], hs))
  {
    assert ([h] + hs)[1..] == hs;
  }

  lemma PrependNil<T>(r: Result<seq<T>>)
    ensures Prepend([], r) == r
  {
    if r.Ok? {
      assert [] + r.value == r.value;
    }
  }

  lemma PrependPrepend<T>(a: seq<T>, b: seq<T>, r: Result<seq<T>>)
    ensures Prepend(a, Prepend(b, r)) == Prepend(a + b, r)
  {
    if r.Ok? {
      assert a + (b + r.value) == (a + b) + r.value;
    }
  }

  /** The first loop of `UplinkPacket::from_bytes`: `n` sub-headers read one after another. */
  method ReadCommandHeaders(reader: Reader, n: nat) returns (r: Result<seq<UplinkCommandHeader>>)
    requires reader.Valid()
    modifies reader
    ensures reader.Valid()
    ensures r == DecodeCommandHeaders(old(reader.Remaining()), n)
    ensures r.Ok? ==> reader.Remaining() == old(reader.Remaining())[CommandHeaderSize * n..]
  {
    ghost var p0 := reader.pos;
    PrependNil(DecodeCommandHeaders(old(reader.Remaining()), n));
    var cmdHeaders: seq<UplinkCommandHeader> := [];
    for i := 0 to n
      invariant reader.Valid()
      invariant reader.pos == p0 + CommandHeaderSize * i
      invariant DecodeCommandHeaders(old(reader.Remaining()), n) == Prepend(cmdHeaders, DecodeCommandHeaders(reader.Remaining(), n - i))
    {
      DecodeCommandHeadersStep(reader.Remaining(), n - i);
      var cmdHeader :- ReadCommandHeader(reader);
      PrependPrepend(cmdHeaders, [cmdHeader], DecodeCommandHeaders(reader.Remaining(), n - (i + 1)));
      cmdHeaders := cmdHeaders + [cmdHeader];
    }
    assert cmdHeaders + [] == cmdHeaders;
    assert reader.Remaining() == old(reader.Remaining())[CommandHeaderSize * n..];
    r := Ok(cmdHeaders);
  }

  /** The second loop of `UplinkPacket::from_bytes`: `cmd_sz` bytes per sub-header, each decoded by its tag. */
  method ReadCommands(reader: Reader, cmdHeaders: seq<UplinkCommandHeader>) returns (r: Result<seq<Command>>)
    requires reader.Valid()
    modifies reader
    ensures reader.Valid()
    ensures r == DecodeCommands(old(reader.Remaining()), cmdHeaders)
    ensures r.Ok? ==> reader.Remaining() == old(reader.Remaining())[SumCmdSz(cmdHeaders)..]
  {
    ghost var p0 := reader.pos;
    assert cmdHeaders[0..] == cmdHeaders;
    PrependNil(DecodeCommands(old(reader.Remaining()), cmdHeaders));
    var commands: seq<Command> := [];
    for j := 0 to |cmdHeaders|
      invariant reader.Valid()
      invariant DecodeCommands(old(reader.Remaining()), cmdHeaders)
                == Prepend(commands, DecodeCommands(reader.Remaining(), cmdHeaders[j..]))
      invariant p0 <= reader.pos && SumCmdSz(cmdHeaders) == (reader.pos - p0) + SumCmdSz(cmdHeaders[j..])
    {
      var h := cmdHeaders[j];
      assert cmdHeaders[j..] == [h] + cmdHeaders[j + 1..];
      DecodeCommandsStep(reader.Remaining(), h, cmdHeaders[j + 1..]);
      var cmdData :- reader.ReadExact(h.cmdSz);
      var command :- CommandFromBytes(h.cmdType, cmdData);
      PrependPrepend(commands, [command], DecodeCommands(reader.Remaining(), cmdHeaders[j + 1..]));
      commands := commands + [command];
    }
    assert cmdHeaders[|cmdHeaders|..] == [] && commands + [] == commands;
    assert reader.Remaining() == old(reader.Remaining())[SumCmdSz(cmdHeaders)..];
    r := Ok(commands);
  }

  /** `UplinkPacket::from_bytes`. */
  method PacketFromBytes(bytes: seq<u8>) returns (r: Result<UplinkPacket>)
    ensures r == DecodePacket(bytes)
  {
    var reader := new Reader(bytes);
    var hr := ReadPacketHeader(reader);
    if hr.Err? {
      DecodePacketStages(bytes);
      return Err(hr.error);
    }
    var header := hr.value;
    ghost var rest := bytes[PacketHeaderSize..];
    var sr := ReadCommandHeaders(reader, header.nCmds);
    if sr.Err? {
      DecodePacketStages(bytes);
      return Err(sr.error);
    }
    var cmdHeaders := sr.value;
    assert reader.Remaining() == rest[CommandHeaderSize * header.nCmds..] == bytes[PacketHeaderSize + CommandHeaderSize * header.nCmds..];
    var cr := ReadCommands(reader, cmdHeaders);
    if cr.Err? {
      DecodePacketStages(bytes);
      return Err(cr.error);
    }
    var commands := cr.value;
    DecodePacketStages(bytes);
    r := Ok(UplinkPacket(header, cmdHeaders, commands));
  }

  /** The first loop of `UplinkPacket::to_bytes`: every sub-header, in order. */
  method WriteCommandHeaders(hs: seq<UplinkCommandHeader>, writer: Writer)
    modifies writer
    ensures writer.buf == old(writer.buf) + Flatten(hs, CommandHeaderBytes)
  {
    ghost var start := writer.buf;
    for i := 0 to |hs|
      invariant writer.buf == start + Flatten(hs[..i], CommandHeaderBytes)
    {
      WriteCommandHeader(hs[i], writer);
      assert hs[..i + 1] == hs[..i] + [hs[i]];
      FlattenSnoc(hs[..i], hs[i], CommandHeaderBytes);
    }
    assert hs[..|hs|] == hs;
  }

  /** The second loop of `UplinkPacket::to_bytes`: every payload, in order. */
  method WriteCommands(commands: seq<Command>, writer: Writer)
    modifies writer
    ensures writer.buf == old(writer.buf) + Flatten(commands, CommandBytes)
  {
    ghost var start := writer.buf;
    for i := 0 to |commands|
      invariant writer.buf == start + Flatten(commands[..i], CommandBytes)
    {
      var cmdBytes := CommandToBytes(commands[i]);
      writer.WriteAll(cmdBytes);
      assert commands[..i + 1] == commands[..i] + [commands[i]];
      FlattenSnoc(commands[..i], commands[i], CommandBytes);
    }
    assert commands[..|commands|] == commands;
  }

  /** `UplinkPacket::to_bytes` (writing into a `Vec` cannot fail, so no error is returned). */
  method PacketToBytes(p: UplinkPacket) returns (r: seq<u8>)
    ensures r == PacketBytes(p)
  {
    var writer := new Writer();
    WritePacketHeader(p.header, writer);
    WriteCommandHeaders(p.cmdHeaders, writer);
    WriteCommands(p.commands, writer);
    r := writer.buf;
  }
}

=== FILE: uslp.dfy ===
/**
 * USLP transfer-frame serialiser (loosely after section 4.1 of CCSDS
 * 732.1-B-2): the primary header is ORed field by field into a 64-bit word
 * and the data field header into a 32-bit word, each then emitted least
 * significant byte first; the insert zone, data field, operational control
 * field and frame error control field follow, concatenated in order.
 *
 * `std::vector<uint8_t>` is a `ByteVector` object where the code grows it
 * in place, and a `seq<bv8>` where it is passed or returned by value. The
 * words are `bv64` and `bv32`, so `|`, `<<`, `>>` and `&` are the machine
 * operations: bits shifted past the top of the word are lost and fields
 * wider than their slot overlap their neighbours.
 */
module Uslp {

  // ---------------------------------------------------------------------
  // Sizes
  // ---------------------------------------------------------------------

  const SecurityHeaderLength := 6
  const SecurityTrailerLength := 16
  const OcfDataLength := 4
  const FecfDataLength := 4
  const PrimaryHeaderLength := 8
  const DataFieldHeaderLength := 3

  // ---------------------------------------------------------------------
  // Frame structures
  // ---------------------------------------------------------------------

  type SecurityHeader = s: seq<bv8> | |s| == 6 witness [0, 0, 0, 0, 0, 0]
  type SecurityTrailer = s: seq<bv8> | |s| == 16 witness [0, 0, 0, 0, 0, 0, 0, 0, 0, 0, 0, 0, 0, 0, 0, 0]
  type Quad = s: seq<bv8> | |s| == 4 witness [0, 0, 0, 0]

  datatype TFPrimaryHeader = TFPrimaryHeader(
    TFVN: bv16,
    SCID: bv16,
    sourceOrDestinationID: bool,
    VCID: bv16,
    MAPID: bv16,
    endTFPrimaryHeaderFlag: bool,
    TFLength: bv16,
    bypassSequenceControlFlag: bool,
    protocolCommandControlFlag: bool,
    spare: bv16,
    operationalControlFieldFlag: bool,
    VCFrameCountLength: bv16,
    VCFrameCountField: bv32)

  /** The default of the `TFVN` member. */
  const DefaultTFVN: bv16 := 4

  datatype TFInsertZone = TFInsertZone(TFIZData: seq<bv8>)

  datatype TFDFHeader = TFDFHeader(
    TFDZConstructionRules: bv16,
    USLPProtocolIdentifier: bv16,
    FirstHeaderLastValidOctetPointer: bv16)

  datatype TFDataField = TFDataField(
    securityHeader: SecurityHeader,
    header: TFDFHeader,
    TFDZ: seq<bv8>,
    securityTrailer: SecurityTrailer)

  datatype OperationalControlField = OperationalControlField(OCFData: Quad)

  datatype FrameErrorControlField = FrameErrorControlField(FECFData: Quad)

  datatype TransferFrame = TransferFrame(
    TFPH: TFPrimaryHeader,
    TFIZ: TFInsertZone,
    TFDF: TFDataField,
    OCF: OperationalControlField,
    FECF: FrameErrorControlField)

  // ---------------------------------------------------------------------
  // std::vector<uint8_t> grown in place
  // ---------------------------------------------------------------------

  class ByteVector {
    var elems: seq<bv8>

    constructor ()
      ensures elems == []
    {
      elems := [];
    }

    method PushBack(b: bv8)
      modifies this
      ensures elems == old(elems) + [b]
    {
      elems := elems + [b];
    }
  }

  /**
   * `appendVector`: `dest` becomes its old contents followed by `src`. The
   * `const&` source is a value here, so it cannot change.
   */
  method AppendVector(dest: ByteVector, src: seq<bv8>)
    modifies dest
    ensures dest.elems == old(dest.elems) + src
  {
    dest.elems := dest.elems + src;
  }

  // ---------------------------------------------------------------------
  // Specification: words and their little-endian bytes
  // ---------------------------------------------------------------------

  function BoolBits(b: bool): (w: bv64)
    ensures w == 0 || w == 1
  {
    if b then 1 else 0
  }

  /**
   * The primary header word: starting from zero, every field is cast to 64
   * bits, shifted to its position and ORed in, in declaration order. The
   * positions are TFVN 0, SCID 4, source-or-destination 20, VCID 21,
   * MAPID 27, end-of-header flag 31, frame length 32, bypass flag 48,
   * protocol-command flag 49, spare 50, OCF flag 52, frame count length 53
   * and frame count 56. `OtherFieldsWord` is the OR of all but the last.
   */
  function PrimaryHeaderWord(h: TFPrimaryHeader): (w: bv64)
    ensures w & 0xF == (h.TFVN & 0xF) as bv64
  {
    OtherFieldsWord(h) | ((h.VCFrameCountField as bv64) << 56)
  }

  function OtherFieldsWord(h: TFPrimaryHeader): bv64
  {
    ((h.TFVN as bv64) << 0)
    | ((h.SCID as bv64) << 4)
    | (BoolBits(h.sourceOrDestinationID) << 20)
    | ((h.VCID as bv64) << 21)
    | ((h.MAPID as bv64) << 27)
    | (BoolBits(h.endTFPrimaryHeaderFlag) << 31)
    | ((h.TFLength as bv64) << 32)
    | (BoolBits(h.bypassSequenceControlFlag) << 48)
    | (BoolBits(h.protocolCommandControlFlag) << 49)
    | ((h.spare as bv64) << 50)
    | (BoolBits(h.operationalControlFieldFlag) << 52)
    | ((h.VCFrameCountLength as bv64) << 53)
  }

  /** The data field header word: rules at bit 0, protocol id at bit 3, octet pointer at bit 8. */
  function DataFieldHeaderWord(h: TFDFHeader): (w: bv32)
    ensures w >> 24 == 0
  {
    ((h.TFDZConstructionRules as bv32) << 0)
    | ((h.USLPProtocolIdentifier as bv32) << 3)
    | ((h.FirstHeaderLastValidOctetPointer as bv32) << 8)
  }

  /** The low byte of `w`. */
  function LowByte(w: bv64): bv8
  {
    (w & 0xFF) as bv8
  }

  /** One `>>= 8` step of the emitting loop. */
  function Shr(w: bv64): bv64
  {
    w >> 8
  }

  /** The low `n` bytes of `w`, least significant first. */
  function LeBytes(w: bv64, n: nat): (r: seq<bv8>)
    ensures |r| == n
  {
    if n == 0 then [] else [LowByte(w)] + LeBytes(Shr(w), n - 1)
  }

  /** `w` after `k` steps of the emitting loop. */
  function ShiftBytes(w: bv64, k: nat): bv64
  {
    if k == 0 then w else ShiftBytes(Shr(w), k - 1)
  }

  /** Byte `k` of the `n` emitted is the low byte of the word after `k` steps. */
  lemma {:induction false} LeBytesIndex(w: bv64, n: nat, k: nat)
    requires k < n
    ensures LeBytes(w, n)[k] == LowByte(ShiftBytes(w, k))
  {
    if k > 0 {
      LeBytesIndex(Shr(w), n - 1, k - 1);
    }
  }

  /** Successive steps of the loop are shifts by successive multiples of 8. */
  lemma ShrSteps(w: bv64)
    ensures Shr(w) == w >> 8
    ensures Shr(w >> 8) == w >> 16
    ensures Shr(w >> 16) == w >> 24
    ensures Shr(w >> 24) == w >> 32
    ensures Shr(w >> 32) == w >> 40
    ensures Shr(w >> 40) == w >> 48
    ensures Shr(w >> 48) == w >> 56
  {
  }

  /** One more step of the loop shifts the word once more. */
  lemma {:induction false} ShiftBytesSucc(w: bv64, k: nat)
    ensures ShiftBytes(w, k + 1) == Shr(ShiftBytes(w, k))
  {
    if k > 0 {
      ShiftBytesSucc(Shr(w), k - 1);
    }
  }

  /** After k steps of the loop (k < 8) the word is shifted right by 8k bits. */
  lemma ShiftBytesClosed(w: bv64)
    ensures ShiftBytes(w, 1) == w >> 8
    ensures ShiftBytes(w, 2) == w >> 16
    ensures ShiftBytes(w, 3) == w >> 24
    ensures ShiftBytes(w, 4) == w >> 32
    ensures ShiftBytes(w, 5) == w >> 40
    ensures ShiftBytes(w, 6) == w >> 48
    ensures ShiftBytes(w, 7) == w >> 56
  {
    ShrSteps(w);
    ShiftBytesSucc(w, 0);
    ShiftBytesSucc(w, 1);
    ShiftBytesSucc(w, 2);
    ShiftBytesSucc(w, 3);
    ShiftBytesSucc(w, 4);
    ShiftBytesSucc(w, 5);
    ShiftBytesSucc(w, 6);
  }

  /** The eight emitted bytes in closed form: byte k is the word shifted right by 8k, masked to 8 bits. */
  lemma LeBytesEight(w: bv64)
    ensures var r := LeBytes(w, 8);
      && r[0] == LowByte(w) && r[1] == LowByte(w >> 8) && r[2] == LowByte(w >> 16) && r[3] == LowByte(w >> 24)
      && r[4] == LowByte(w >> 32) && r[5] == LowByte(w >> 40) && r[6] == LowByte(w >> 48) && r[7] == LowByte(w >> 56)
  {
    ShiftBytesClosed(w);
    LeBytesIndex(w, 8, 0);
    LeBytesIndex(w, 8, 1);
    LeBytesIndex(w, 8, 2);
    LeBytesIndex(w, 8, 3);
    LeBytesIndex(w, 8, 4);
    LeBytesIndex(w, 8, 5);
    LeBytesIndex(w, 8, 6);
    LeBytesIndex(w, 8, 7);
  }

  function PrimaryHeaderBytes(h: TFPrimaryHeader): (r: seq<bv8>)
    ensures |r| == PrimaryHeaderLength
  {
    LeBytes(PrimaryHeaderWord(h), PrimaryHeaderLength)
  }

  function DataFieldHeaderBytes(h: TFDFHeader): (r: seq<bv8>)
    ensures |r| == DataFieldHeaderLength
  {
    LeBytes(DataFieldHeaderWord(h) as bv64, DataFieldHeaderLength)
  }

  function DataFieldBytes(df: TFDataField): (r: seq<bv8>)
    ensures |r| == SecurityHeaderLength + DataFieldHeaderLength + |df.TFDZ| + SecurityTrailerLength
  {
    df.securityHeader + DataFieldHeaderBytes(df.header) + df.TFDZ + df.securityTrailer
  }

  function TransferFrameBytes(tf: TransferFrame): (r: seq<bv8>)
    ensures |r| == PrimaryHeaderLength + |tf.TFIZ.TFIZData| + |DataFieldBytes(tf.TFDF)| + OcfDataLength + FecfDataLength
  {
    PrimaryHeaderBytes(tf.TFPH) + PackInsertZone(tf.TFIZ) + DataFieldBytes(tf.TFDF)
    + tf.OCF.OCFData + tf.FECF.FECFData
  }

  // ---------------------------------------------------------------------
  // Properties of the layout
  // ---------------------------------------------------------------------

  /** A header left at the default version number emits 4 in the low nibble of its first byte. */
  lemma DefaultVersionInFirstByte(h: TFPrimaryHeader)
    requires h.TFVN == DefaultTFVN
    ensures PrimaryHeaderBytes(h)[0] & 0xF == 4
  {
    var w := PrimaryHeaderWord(h);
    assert PrimaryHeaderBytes(h)[0] == LowByte(w);
    assert w & 0xF == 4;
  }

  /** Every field fits the slot reserved for it, so no two fields share a bit. */
  predicate FieldsFit(h: TFPrimaryHeader)
  {
    && h.TFVN < 16
    && h.VCID < 64
    && h.MAPID < 16
    && h.spare < 4
    && h.VCFrameCountLength < 8
  }

  /** A reference reader of the primary header word: shift each slot down and mask it to its width. */
  function UnpackPrimaryHeader(w: bv64): (h: TFPrimaryHeader)
    ensures FieldsFit(h) && h.VCFrameCountField < 0x100
  {
    TFPrimaryHeader(
      ((w >> 0) & 0xF) as bv16,
      ((w >> 4) & 0xFFFF) as bv16,
      (w >> 20) & 1 == 1,
      ((w >> 21) & 0x3F) as bv16,
      ((w >> 27) & 0xF) as bv16,
      (w >> 31) & 1 == 1,
      ((w >> 32) & 0xFFFF) as bv16,
      (w >> 48) & 1 == 1,
      (w >> 49) & 1 == 1,
      ((w >> 50) & 0x3) as bv16,
      (w >> 52) & 1 == 1,
      ((w >> 53) & 0x7) as bv16,
      ((w >> 56) & 0xFF) as bv32)
  }

  lemma UnpackLowFields(h: TFPrimaryHeader)
    requires FieldsFit(h)
    ensures var u := UnpackPrimaryHeader(PrimaryHeaderWord(h));
      && u.TFVN == h.TFVN && u.SCID == h.SCID && u.sourceOrDestinationID == h.sourceOrDestinationID
      && u.VCID == h.VCID && u.MAPID == h.MAPID && u.endTFPrimaryHeaderFlag == h.endTFPrimaryHeaderFlag
  {
  }

  lemma UnpackMiddleFields(h: TFPrimaryHeader)
    requires FieldsFit(h)
    ensures var u := UnpackPrimaryHeader(PrimaryHeaderWord(h));
      && u.TFLength == h.TFLength && u.bypassSequenceControlFlag == h.bypassSequenceControlFlag
      && u.protocolCommandControlFlag == h.protocolCommandControlFlag && u.spare == h.spare
  {
  }

  lemma UnpackHighFields(h: TFPrimaryHeader)
    requires FieldsFit(h)
    ensures var u := UnpackPrimaryHeader(PrimaryHeaderWord(h));
      && u.operationalControlFieldFlag == h.operationalControlFieldFlag
      && u.VCFrameCountLength == h.VCFrameCountLength
      && u.VCFrameCountField == h.VCFrameCountField & 0xFF
  {
  }

  /**
   * When every field fits its slot, each one comes back from the packed
   * word by shift and mask; of the frame count only the low 8 bits do.
   */
  lemma PrimaryHeaderFieldsRecoverable(h: TFPrimaryHeader)
    requires FieldsFit(h)
    ensures UnpackPrimaryHeader(PrimaryHeaderWord(h)) == h.(VCFrameCountField := h.VCFrameCountField & 0xFF)
  {
    UnpackLowFields(h);
    UnpackMiddleFields(h);
    UnpackHighFields(h);
  }

  lemma FrameCountSlot(others: bv64, count: bv32)
    ensures others | ((count as bv64) << 56) == others | (((count & 0xFF) as bv64) << 56)
  {
  }

  /**
   * The frame count is shifted by 56 in a 64-bit word: all but its low 8
   * bits are lost, so the word is the same as for the count's low byte.
   */
  lemma FrameCountTruncated(h: TFPrimaryHeader)
    ensures PrimaryHeaderWord(h) == OtherFieldsWord(h) | (((h.VCFrameCountField & 0xFF) as bv64) << 56)
  {
    FrameCountSlot(OtherFieldsWord(h), h.VCFrameCountField);
  }

  /** With the fields in their slots, the last header byte is the low byte of the frame count. */
  lemma FrameCountInLastByte(h: TFPrimaryHeader)
    requires FieldsFit(h)
    ensures PrimaryHeaderBytes(h)[7] == (h.VCFrameCountField & 0xFF) as bv8
  {
    var w := PrimaryHeaderWord(h);
    LeBytesEight(w);
    UnpackHighFields(h);
  }

  /** The first three of the emitted bytes. */
  lemma LeBytesThree(w: bv64)
    ensures LeBytes(w, 3) == [LowByte(w), LowByte(Shr(w)), LowByte(Shr(Shr(w)))]
  {
    var b0, b1, b2 := LowByte(w), LowByte(Shr(w)), LowByte(Shr(Shr(w)));
    assert LeBytes(Shr(Shr(w)), 1) == [b2];
    assert LeBytes(Shr(w), 2) == [b1, b2];
    assert LeBytes(w, 3) == [b0] + [b1, b2];
  }

  lemma DataFieldHeaderWordBytes(h: TFDFHeader)
    requires h.TFDZConstructionRules < 8 && h.USLPProtocolIdentifier < 32
    ensures var w := DataFieldHeaderWord(h) as bv64;
      && LowByte(w) == (h.TFDZConstructionRules | (h.USLPProtocolIdentifier << 3)) as bv8
      && LowByte(Shr(w)) == (h.FirstHeaderLastValidOctetPointer & 0xFF) as bv8
      && LowByte(Shr(Shr(w))) == (h.FirstHeaderLastValidOctetPointer >> 8) as bv8
  {
  }

  /** With the rules in 3 bits and the protocol id in 5, byte 0 holds both and bytes 1-2 the pointer, low byte first. */
  lemma DataFieldHeaderLayout(h: TFDFHeader)
    requires h.TFDZConstructionRules < 8 && h.USLPProtocolIdentifier < 32
    ensures DataFieldHeaderBytes(h) == [
      (h.TFDZConstructionRules | (h.USLPProtocolIdentifier << 3)) as bv8,
      (h.FirstHeaderLastValidOctetPointer & 0xFF) as bv8,
      (h.FirstHeaderLastValidOctetPointer >> 8) as bv8]
  {
    LeBytesThree(DataFieldHeaderWord(h) as bv64);
    DataFieldHeaderWordBytes(h);
  }

  /** The five parts sit one after another: each can be cut back out of the frame. */
  lemma TransferFrameParts(tf: TransferFrame)
    ensures var r := TransferFrameBytes(tf);
      var iz := |tf.TFIZ.TFIZData|;
      var df := SecurityHeaderLength + DataFieldHeaderLength + |tf.TFDF.TFDZ| + SecurityTrailerLength;
      && |r| == PrimaryHeaderLength + iz + df + OcfDataLength + FecfDataLength
      && r[..8] == PrimaryHeaderBytes(tf.TFPH)
      && r[8..8 + iz] == tf.TFIZ.TFIZData
      && r[8 + iz..8 + iz + df] == DataFieldBytes(tf.TFDF)
      && r[8 + iz + df..8 + iz + df + 4] == tf.OCF.OCFData
      && r[8 + iz + df + 4..] == tf.FECF.FECFData
  {
  }

  /** The OCF is emitted whether or not the header's OCF flag says it is present. */
  lemma OcfIndependentOfFlag(tf: TransferFrame, flag: bool)
    ensures var tf' := tf.(TFPH := tf.TFPH.(operationalControlFieldFlag := flag));
      && |TransferFrameBytes(tf')| == |TransferFrameBytes(tf)|
      && TransferFrameBytes(tf')[8..] == TransferFrameBytes(tf)[8..]
  {
  }

  // ---------------------------------------------------------------------
  // The serialiser
  // ---------------------------------------------------------------------

  /**
   * The loop shared by `packPrimaryHeader` and `packDataFieldHeader`: push
   * the low byte of the word and shift it right by 8, `n` times.
   */
  method PackLeBytes(word: bv64, n: nat) returns (r: seq<bv8>)
    ensures r == LeBytes(word, n)
  {
    var packedHeader := word;
    var packedHeaderVector := new ByteVector();
    for i := 0 to n
      invariant packedHeaderVector.elems + LeBytes(packedHeader, n - i) == LeBytes(word, n)
    {
      packedHeaderVector.PushBack((packedHeader & 0xFF) as bv8);
      packedHeader := packedHeader >> 8;
    }
    r := packedHeaderVector.elems;
  }

  /**
   * `packPrimaryHeader`: the thirteen `|=` into a zero word are the OR
   * `PrimaryHeaderWord`; its eight low bytes are then emitted.
   */
  method PackPrimaryHeader(tfph: TFPrimaryHeader) returns (r: seq<bv8>)
    ensures r == PrimaryHeaderBytes(tfph)
  {
    var packedHeader: bv64 := PrimaryHeaderWord(tfph);
    r := PackLeBytes(packedHeader, PrimaryHeaderLength);
  }

  /** `packInsertZone`: the insert zone is passed through untouched. */
  function PackInsertZone(tfiz: TFInsertZone): (r: seq<bv8>)
    ensures r == tfiz.TFIZData
  {
    tfiz.TFIZData
  }

  /**
   * `packDataFieldHeader`: the three `|=` into a zero 32-bit word are the
   * OR `DataFieldHeaderWord`; its three low bytes are then emitted (a
   * right shift of the 32-bit word and of its zero-extension agree).
   */
  method PackDataFieldHeader(tfdfh: TFDFHeader) returns (r: seq<bv8>)
    ensures r == DataFieldHeaderBytes(tfdfh)
  {
    var packedHeader: bv32 := DataFieldHeaderWord(tfdfh);
    r := PackLeBytes(packedHeader as bv64, DataFieldHeaderLength);
  }

  /** `packDataField`: security header, data field header, data zone, security trailer. */
  method PackDataField(tfdf: TFDataField) returns (r: seq<bv8>)
    ensures r == DataFieldBytes(tfdf)
  {
    var packedDataField := new ByteVector();
    for i := 0 to SecurityHeaderLength
      invariant packedDataField.elems == tfdf.securityHeader[..i]
    {
      packedDataField.PushBack(tfdf.securityHeader[i]);
      assert tfdf.securityHeader[..i + 1] == tfdf.securityHeader[..i] + [tfdf.securityHeader[i]];
    }
    assert tfdf.securityHeader[..SecurityHeaderLength] == tfdf.securityHeader;

    var packedHeader := PackDataFieldHeader(tfdf.header);
    AppendVector(packedDataField, packedHeader);
    AppendVector(packedDataField, tfdf.TFDZ);

    ghost var prefix := packedDataField.elems;
    for i := 0 to SecurityTrailerLength
      invariant packedDataField.elems == prefix + tfdf.securityTrailer[..i]
    {
      packedDataField.PushBack(tfdf.securityTrailer[i]);
      assert tfdf.securityTrailer[..i + 1] == tfdf.securityTrailer[..i] + [tfdf.securityTrailer[i]];
    }
    assert tfdf.securityTrailer[..SecurityTrailerLength] == tfdf.securityTrailer;
    r := packedDataField.elems;
  }

  /** Copies a four-byte array into a fresh vector, element by element. */
  method PackQuad(data: Quad) returns (r: seq<bv8>)
    ensures r == data
  {
    var packed := new ByteVector();
    for i := 0 to 4
      invariant packed.elems == data[..i]
    {
      packed.PushBack(data[i]);
      assert data[..i + 1] == data[..i] + [data[i]];
    }
    assert data[..4] == data;
    r := packed.elems;
  }

  /** `packOperationalControlField`: the four stored bytes, unchanged. */
  method PackOperationalControlField(ocf: OperationalControlField) returns (r: seq<bv8>)
    ensures r == ocf.OCFData
  {
    r := PackQuad(ocf.OCFData);
  }

  /** `packFrameErrorControlField`: the four stored bytes, unchanged (no CRC is computed). */
  method PackFrameErrorControlField(fecf: FrameErrorControlField) returns (r: seq<bv8>)
    ensures r == fecf.FECFData
  {
    r := PackQuad(fecf.FECFData);
  }

  /** `packTransferFrame`: the five parts, packed separately and appended in order. */
  method PackTransferFrame(tf: TransferFrame) returns (r: seq<bv8>)
    ensures r == TransferFrameBytes(tf)
  {
    var packedTransferFrame := new ByteVector();

    var packedPrimaryHeader := PackPrimaryHeader(tf.TFPH);
    var packedInsertZone := PackInsertZone(tf.TFIZ);
    var packedDataField := PackDataField(tf.TFDF);
    var packedOperationalControlField := PackOperationalControlField(tf.OCF);
    var packedFrameErrorControlField := PackFrameErrorControlField(tf.FECF);
    AppendVector(packedTransferFrame, packedPrimaryHeader);
    assert packedTransferFrame.elems == packedPrimaryHeader;
    AppendVector(packedTransferFrame, packedInsertZone);
    AppendVector(packedTransferFrame, packedDataField);
    AppendVector(packedTransferFrame, packedOperationalControlField);
    AppendVector(packedTransferFrame, packedFrameErrorControlField);

    r := packedTransferFrame.elems;
  }
}
